=== FILE: README.md ===
# braingdx GameWorld and GameObject in Dafny

This project models two parts of the braingdx game framework.

The first is the object-lifecycle manager `GameWorld`. It covers:
- pooled object allocation;
- the identity map from id to object;
- the group index;
- the ordered listener list;
- the per-tick candidate buffer `updateableObjects`;
- the runnables the world posts to the host loop.

The second is the legacy `GameObject` value class, with its position bookkeeping and `reset`.

The world is an immutable record (`World.World`). Objects live in an arena, `store`, addressed by
`Handle`. The identity map, the groups, the candidate buffer, the pool's free list and the queued
commands all hold handles. This keeps Java's reference sharing: an object in a group and in the
candidate buffer is one object, and a freed object can be handed out again.

Every operation returns the next world together with the trace of listener callbacks it fired, in
firing order (`Listeners.Event`). The callbacks are `onAdd`, `onRemove`, `onUpdate`, the pairwise
`onUpdate`, `onStatusChange` and `onClear`.

`Gdx.app.postRunnable` is the FIFO queue `pending`. `World.Flush` is the host loop's safe point
that runs it. Both `remove` overloads only enqueue. A lazy `addObject` obtains the object, runs the
mutator and registers the id at once; only the group insertion and the `onAdd` calls are posted.

Modules:
- `Wrappers`: `Option`.
- `Objects`: the world-package object as the manager sees it: id, active, persistent and the
  optional "updateable" attribute.
- `Listeners`: the listener list and the event trace.
- `Groups`: the group index.
- `World`: `addObject`, `remove`, `removeInternally`, `clearGroup`, `clear`, `size`,
  `getObjectById`, and add/remove listener.
- `WorldProperties`: properties across several operations and the command queue.
- `Update`: `update(delta)` and `updateUpdatableObjects`.
- `UpdateProperties`: properties of the tick.
- `GameObjects`: the legacy `GameObject`.

Behaviour of the code that the model keeps on purpose:
- The duplicate-id check in `addObject` looks at the id the pool handed out, before the mutator
  runs. Registration uses the id after the mutator, and overwrites any object the map held under
  that id. So "every grouped object is registered" is not an invariant of the world, and the model
  does not claim it.
- `clear()` fires `onClear` once per listener and never `onRemove`. It keeps the candidate buffer
  and the queued commands.
- A `remove(id)` queued before a lazy `addObject` whose object gets that id runs first. It
  unregisters and frees the object, and the queued addition then groups the freed object anyway
  (`WorldProperties.RemoveQueuedBeforeLazyAdd`).
- At or above the 50-object threshold, an `onStatusChange` fires when the object's stored "updateable"
  flag (default `false`) differs from its membership in the previous candidate buffer. The event
  carries that previous membership. It is not fired on a change of spatial membership.
- The query rectangle is the camera rectangle grown by 10% of its size on every side, then clamped
  in four steps. For a 20×20 camera at the origin in a 100×100 world the result is 22×22
  (`UpdateProperties.QueryRectAtOrigin`), not 24×24. The model follows the code.

## Model

| member | source | states |
|---|---|---|
| `World.NewWorld` | core/src/main/java/de/bitbrain/braingdx/world/GameWorld.java:84-98 | a new world is well formed, has size 0, no grouped object and nothing queued |
| `World.Size` | core/src/main/java/de/bitbrain/braingdx/world/GameWorld.java:313-315 | the size is zero exactly when no id is registered |
| `World.GetObjects` | core/src/main/java/de/bitbrain/braingdx/world/GameWorld.java:295-306 | with `updatableOnly` the candidate buffer is returned; otherwise exactly the objects some group holds. Either way every returned handle is an object of the world |
| `World.GetObjectById` | core/src/main/java/de/bitbrain/braingdx/world/GameWorld.java:276-278 | an object is returned exactly when its id is registered, and it is the object registered under it |
| `Listeners.Notify` | core/src/main/java/de/bitbrain/braingdx/world/GameWorld.java:236-238 | a listener loop makes one callback per listener, in listener order, and no other |
| `Listeners.AddListener` | core/src/main/java/de/bitbrain/braingdx/world/GameWorld.java:104-106 | the new listener is notified after all earlier ones, which keep their order |
| `Listeners.RemoveListener` | core/src/main/java/de/bitbrain/braingdx/world/GameWorld.java:108-110 | removing an unregistered listener changes nothing; otherwise the list shrinks by exactly one |
| `Listeners.RemoveListenerCutsFirst` | core/src/main/java/de/bitbrain/braingdx/world/GameWorld.java:108-110 | exactly the first registration of the listener is cut out, and the rest keep their order |
| `Listeners.RemoveListenerCount` | core/src/main/java/de/bitbrain/braingdx/world/GameWorld.java:108-110 | one registration of the listener goes, and every other registration stays |
| `Listeners.RemoveAddedListener` | core/src/main/java/de/bitbrain/braingdx/world/GameWorld.java:104-110 | adding a new listener and then removing it restores the list |
| `World.AddListener` | core/src/main/java/de/bitbrain/braingdx/world/GameWorld.java:104-106 | only the listener list changes; well-formedness is kept |
| `World.RemoveListener` | core/src/main/java/de/bitbrain/braingdx/world/GameWorld.java:108-110 | only the listener list changes; well-formedness is kept |
| `World.Obtain` | core/src/main/java/de/bitbrain/braingdx/world/GameWorld.java:204 | the pool hands out its most recently freed object, or a fresh one when none is free; nothing else in the world changes |
| `World.AddObject` | core/src/main/java/de/bitbrain/braingdx/world/GameWorld.java:200-241 | the pool hands out the object `obtain` gives, the free list changes as in `obtain`, and no other stored object changes. A taken id leaves identity map, groups and queue unchanged, skips the mutator and fires nothing, but still returns the object. Otherwise the mutated object is registered at once. Immediate: it is appended to its group, one `onAdd` fires per listener in order, and the other groups are unchanged. Lazy: only the deferred addition is queued. Size grows by one unless an id collides |
| `World.AddToDefaultGroup` | core/src/main/java/de/bitbrain/braingdx/world/GameWorld.java:135-193 | the `addObject` overloads that name no group add to the default group: an object with a free id is appended to it, and a taken id leaves the groups alone |
| `World.Remove` | core/src/main/java/de/bitbrain/braingdx/world/GameWorld.java:364-376 | `remove(ids)` only appends one deferred command; nothing else changes and nothing fires |
| `World.RemoveObjects` | core/src/main/java/de/bitbrain/braingdx/world/GameWorld.java:350-362 | `remove(objects)` only appends one deferred command; nothing else changes and nothing fires |
| `World.RemoveInternally` | core/src/main/java/de/bitbrain/braingdx/world/GameWorld.java:378-392 | an absent id is a silent no-op. A present id is unregistered and its object gets one `onRemove` per listener. Every group keeps its position and key and loses exactly the copies of the object, so no other member moves. The object is freed to the pool and the size drops by one |
| `World.RemoveAll` | core/src/main/java/de/bitbrain/braingdx/world/GameWorld.java:364-376 | the loop of `removeInternally` calls in a removal runnable keeps the world well formed and leaves the object store, the listeners, the candidate buffer and the queue alone |
| `World.RunCommand` | core/src/main/java/de/bitbrain/braingdx/world/GameWorld.java:350-376 | running one posted runnable (a deferred addition or one of the two removals) keeps the world well formed and leaves the object store, the listeners, the candidate buffer and the queue alone |
| `World.RunCommands` | core/src/main/java/de/bitbrain/braingdx/world/GameWorld.java:350-376 | running posted runnables one after another keeps the world well formed and leaves the object store, the listeners, the candidate buffer and the queue alone |
| `World.RemovedFromGroups` | core/src/main/java/de/bitbrain/braingdx/world/GameWorld.java:390 | taking an object out of the groups removes every copy of it, keeps every other member, and keeps the keys distinct |
| `World.UnregisteredId` | core/src/main/java/de/bitbrain/braingdx/world/GameWorld.java:382 | unregistering a present id shrinks the map by one and keeps every other entry |
| `World.RemoveAllIdentity` | core/src/main/java/de/bitbrain/braingdx/world/GameWorld.java:368-373 | after removing a list of ids, exactly the other ids are still registered, each to the same object |
| `World.RemoveAllShrinksGroups` | core/src/main/java/de/bitbrain/braingdx/world/GameWorld.java:368-373 | removing a list of ids never puts an object into a group, nor adds another copy of one |
| `World.RemoveAllEvents` | core/src/main/java/de/bitbrain/braingdx/world/GameWorld.java:368-373 | removing a list of ids fires only `onRemove`, and only to registered listeners |
| `World.Flush` | core/src/main/java/de/bitbrain/braingdx/world/GameWorld.java:222-230 | the safe point runs every queued command and leaves the queue empty, the store, listeners and candidate buffer untouched, and the world well formed |
| `World.ClearGroup` | core/src/main/java/de/bitbrain/braingdx/world/GameWorld.java:330-339 | a missing group makes `clearGroup` a no-op. Otherwise each member of a copy of the group goes through `removeInternally` by its id, then the group is dropped. Only `onRemove` fires, and nothing is deferred |
| `World.ClearMembers` | core/src/main/java/de/bitbrain/braingdx/world/GameWorld.java:333-337 | after removing the members by id and dropping the group, exactly the ids not carried by a member stay registered, and the group is gone |
| `World.Clear` | core/src/main/java/de/bitbrain/braingdx/world/GameWorld.java:320-328 | identity map, groups and pool are emptied: no id is registered and no group is left, not even an empty one, so `getGroup` answers null for every key. Exactly one `onClear` fires per listener, in order, and no `onRemove`. The candidate buffer and the queue stay |
| `Groups.Find` | core/src/main/java/de/bitbrain/braingdx/world/GameWorld.java:331 | the position found is the first group with that key, and none is found exactly when no group has it |
| `Groups.GetGroup` | core/src/main/java/de/bitbrain/braingdx/world/GameWorld.java:341-343 | `getGroup` is null exactly when no group has the key, and otherwise gives that group's members |
| `Groups.GetAllAppend` | core/src/main/java/de/bitbrain/braingdx/world/GameWorld.java:396 | `getAll` of two runs of groups is the concatenation of their `getAll` |
| `Groups.InGetAll` | core/src/main/java/de/bitbrain/braingdx/world/GameWorld.java:396 | an object is in `getAll` exactly when some group holds it |
| `Groups.AddToGroup` | core/src/main/java/de/bitbrain/braingdx/world/GameWorld.java:235 | `addToGroup` appends to the named group, creating it when new. Other groups are unchanged, keys stay distinct, and `getAll` gains exactly the object |
| `Groups.Remove` | core/src/main/java/de/bitbrain/braingdx/world/GameWorld.java:390 | `objects.remove` keeps every group at its position and under its key, and takes the object out of that group's members |
| `Groups.WithoutCount` | core/src/main/java/de/bitbrain/braingdx/world/GameWorld.java:390 | every copy of the object leaves a member list, and every other member stays, as often as before |
| `Groups.GetAllRemove` | core/src/main/java/de/bitbrain/braingdx/world/GameWorld.java:390 | `remove` on the index takes exactly the copies of the object out of `getAll` and keeps the order of the rest |
| `Groups.RemoveKeepsKeys` | core/src/main/java/de/bitbrain/braingdx/world/GameWorld.java:390 | `remove` on the index keeps every group, so keys stay distinct and lookups find the same groups |
| `Groups.ClearGroup` | core/src/main/java/de/bitbrain/braingdx/world/GameWorld.java:337 | `clearGroup` on the index drops exactly group `k`. Every other lookup is unchanged, and `getAll` loses exactly that group's members |
| `WorldProperties.ClearGroupAfterClear` | core/src/main/java/de/bitbrain/braingdx/world/GameWorld.java:320-339 | after `clear()`, `clearGroup(k)` finds no group for any key, removes nothing and fires nothing |
| `WorldProperties.RunCommandsAppend` | core/src/main/java/de/bitbrain/braingdx/world/GameWorld.java:222-230 | running two batches of posted runnables is running the first and then the second; the traces concatenate |
| `WorldProperties.FlushInSubmissionOrder` | core/src/main/java/de/bitbrain/braingdx/world/GameWorld.java:351-375 | runnables posted earlier run before those posted later |
| `WorldProperties.RemoveInternallyIdempotent` | core/src/main/java/de/bitbrain/braingdx/world/GameWorld.java:382-386 | removing an id a second time is a silent no-op |
| `WorldProperties.RemoveSameIdTwice` | core/src/main/java/de/bitbrain/braingdx/world/GameWorld.java:368-373 | one deferred removal naming the same id twice equals naming it once, and fires `onRemove` at most once per listener |
| `WorldProperties.DeferredRemoveTwice` | core/src/main/java/de/bitbrain/braingdx/world/GameWorld.java:364-392 | `remove(id)` posted twice, behind any queued runnables, acts like posting it once. The safe point fires what the earlier runnables fire, then one `onRemove` per listener if the id is still registered after them, and nothing more |
| `WorldProperties.LazyAddMatchesImmediateAfterFlush` | core/src/main/java/de/bitbrain/braingdx/world/GameWorld.java:217-239 | from an empty queue, a lazy addition followed by the safe point reaches the world and the `onAdd` calls of the immediate addition |
| `WorldProperties.RemoveAllRegisteredEvents` | core/src/main/java/de/bitbrain/braingdx/world/GameWorld.java:368-390 | removing distinct registered ids fires one `onRemove` per object and listener, object after object |
| `WorldProperties.RemoveAllRegisteredSize` | core/src/main/java/de/bitbrain/braingdx/world/GameWorld.java:368-390 | removing distinct registered ids lowers the size by their number |
| `WorldProperties.RemoveAllUngroups` | core/src/main/java/de/bitbrain/braingdx/world/GameWorld.java:368-390 | after removing a list of ids, none of the objects they named stays in any group |
| `WorldProperties.ClearRegisteredGroup` | core/src/main/java/de/bitbrain/braingdx/world/GameWorld.java:330-339 | clearing a group whose members are registered under their own distinct ids fires exactly one `onRemove` per member and listener, in member order. The size drops by the group's size, every member leaves the groups, and the group is gone |
| `WorldProperties.RemoveQueuedBeforeLazyAdd` | core/src/main/java/de/bitbrain/braingdx/world/GameWorld.java:217-230 | a `remove(id)` queued before a lazy addition whose object gets that id runs first: `onRemove` and then `onAdd` fire, and the object ends up grouped, in the pool's free list, and unregistered |
| `Update.DefaultBounds` | core/src/main/java/de/bitbrain/braingdx/world/GameWorld.java:56-82 | by default every object is in bounds and the world has zero width and height |
| `Update.Padded` | core/src/main/java/de/bitbrain/braingdx/world/GameWorld.java:423-429 | the padded rectangle extends the camera rectangle by 10% of its width and height on each side |
| `Update.QueryRect` | core/src/main/java/de/bitbrain/braingdx/world/GameWorld.java:423-445 | after clamping, x and y are at least 0 and the right and bottom edges lie within the world. Each edge is the padded edge clamped to the world, so the right/bottom clamps leave x and y where the left/top clamps put them |
| `Update.StatusNotices` | core/src/main/java/de/bitbrain/braingdx/world/GameWorld.java:405-414 | `onStatusChange` fires to every listener exactly when the stored flag differs from the previous membership, and carries that membership |
| `Update.StatusStep` | core/src/main/java/de/bitbrain/braingdx/world/GameWorld.java:415-419 | afterwards the attribute is set. It becomes true when it was absent, and otherwise the previous membership; nothing else changes |
| `Update.StatusPass` | core/src/main/java/de/bitbrain/braingdx/world/GameWorld.java:404-421 | the pass touches only the flags of grouped objects. Every event is an `onStatusChange` to a listener, about a grouped object, carrying its previous membership |
| `Update.Evictions` | core/src/main/java/de/bitbrain/braingdx/world/GameWorld.java:250-256 | the evicted candidates are exactly those out of bounds and not persistent |
| `Update.Removals` | core/src/main/java/de/bitbrain/braingdx/world/GameWorld.java:254 | one `remove(object)` runnable per evicted object, in eviction order |
| `Update.SelectCandidates` | core/src/main/java/de/bitbrain/braingdx/world/GameWorld.java:394-447 | below 50 grouped objects the buffer becomes `getAll()` and nothing else happens. Otherwise the buffer is the quad tree's answer for the clamped query rectangle, and only status events fire, each carrying the previous membership. Only "updateable" flags change |
| `Update.PairEvents` | core/src/main/java/de/bitbrain/braingdx/world/GameWorld.java:260-268 | the subject meets exactly the active objects of the buffer whose id differs, once per listener each |
| `Update.PairNotices` | core/src/main/java/de/bitbrain/braingdx/world/GameWorld.java:260-269 | with no listener registered the pairwise loop fires nothing; `Update.PairEvents` gives its exact callbacks |
| `Update.SubjectNotices` | core/src/main/java/de/bitbrain/braingdx/world/GameWorld.java:251-269 | with no listener nothing fires; with one, a subject is silent exactly when it is out of bounds and not persistent |
| `Update.Dispatch` | core/src/main/java/de/bitbrain/braingdx/world/GameWorld.java:250-270 | with no listener registered the whole dispatch loop fires nothing; `Update.DispatchUpdates`, `Update.DispatchPairs` and `Update.DispatchKinds` give its exact callbacks |
| `Update.SubjectUpdates` | core/src/main/java/de/bitbrain/braingdx/world/GameWorld.java:252-259 | an evicted subject gets no `onUpdate`; any other gets one per listener |
| `Update.SubjectPairs` | core/src/main/java/de/bitbrain/braingdx/world/GameWorld.java:252-269 | a pairwise `onUpdate` is fired for the subject exactly when it is dispatched and active, with every active candidate of another id |
| `Update.SubjectKinds` | core/src/main/java/de/bitbrain/braingdx/world/GameWorld.java:252-269 | a subject causes only `onUpdate` callbacks |
| `Update.DispatchUpdates` | core/src/main/java/de/bitbrain/braingdx/world/GameWorld.java:250-259 | the dispatch loop fires `onUpdate` to every listener for exactly the candidates that are not evicted |
| `Update.DispatchPairs` | core/src/main/java/de/bitbrain/braingdx/world/GameWorld.java:250-269 | the pairwise `onUpdate` fires for exactly the pairs of a dispatched active candidate and an active candidate of another id. That includes out-of-bounds candidates still in the buffer |
| `Update.DispatchKinds` | core/src/main/java/de/bitbrain/braingdx/world/GameWorld.java:250-270 | the dispatch loop fires nothing but `onUpdate` callbacks |
| `Update.StatusThenDispatch` | core/src/main/java/de/bitbrain/braingdx/world/GameWorld.java:248-250 | in the tick's trace, status callbacks come from the selection step and update callbacks from the dispatch loop |
| `Update.Update` | core/src/main/java/de/bitbrain/braingdx/world/GameWorld.java:248-271 | a tick changes no registration, group, listener or pool entry. The buffer is `getAll()` below the threshold and the quad tree's answer otherwise. Status events fire only at or above the threshold. Evicted candidates are queued for removal after what was queued before |
| `Update.UpdateDispatch` | core/src/main/java/de/bitbrain/braingdx/world/GameWorld.java:248-271 | a tick fires `onUpdate` for exactly the non-evicted candidates. The pairwise `onUpdate` fires for exactly the dispatched active candidates paired with active candidates of another id |
| `UpdateProperties.StatusPassFlags` | core/src/main/java/de/bitbrain/braingdx/world/GameWorld.java:404-421 | when each object is visited once, each grouped object's flag is the status rule applied to its previous membership |
| `UpdateProperties.StatusPassExact` | core/src/main/java/de/bitbrain/braingdx/world/GameWorld.java:404-414 | when each object is visited once, `onStatusChange` fires for exactly the grouped objects whose flag differs from their previous membership, and carries that membership |
| `UpdateProperties.StatusPassOncePerListener` | core/src/main/java/de/bitbrain/braingdx/world/GameWorld.java:404-414 | each object gets at most one `onStatusChange` per listener in a tick |
| `UpdateProperties.SelectCandidatesStatus` | core/src/main/java/de/bitbrain/braingdx/world/GameWorld.java:398-421 | below the threshold no status event fires. At or above it, the status events and the new flags are exactly those of the status rule |
| `Update.DispatchCons` | core/src/main/java/de/bitbrain/braingdx/world/GameWorld.java:250-270 | the dispatch loop handles the first candidate in the buffer, then the rest |
| `UpdateProperties.DispatchAppendHead` | core/src/main/java/de/bitbrain/braingdx/world/GameWorld.java:250-270 | over a split buffer, the first candidate of the left part is dispatched first, then the rest of both parts |
| `UpdateProperties.DispatchAppend` | core/src/main/java/de/bitbrain/braingdx/world/GameWorld.java:250-270 | dispatch over a split buffer is dispatch over each part, one after the other |
| `UpdateProperties.DispatchInCandidateOrder` | core/src/main/java/de/bitbrain/braingdx/world/GameWorld.java:250-270 | the callbacks for the i-th candidate come after those of every earlier candidate and before those of every later one |
| `UpdateProperties.SubjectUpdatesFirst` | core/src/main/java/de/bitbrain/braingdx/world/GameWorld.java:257-269 | a dispatched subject's `onUpdate` calls come first, in listener order, and only pairwise calls follow them |
| `UpdateProperties.UpdateStatusChanges` | core/src/main/java/de/bitbrain/braingdx/world/GameWorld.java:394-421 | a tick's status events are exactly those of the status rule, and all of them precede every update callback |
| `UpdateProperties.RunRemovals` | core/src/main/java/de/bitbrain/braingdx/world/GameWorld.java:350-361 | running the eviction runnables removes the evicted objects by their ids, in order |
| `UpdateProperties.FlushEvictions` | core/src/main/java/de/bitbrain/braingdx/world/GameWorld.java:252-255 | at the next safe point every evicted object is removed by id, and none of those ids stays registered |
| `UpdateProperties.EvictionsRunOnFlush` | core/src/main/java/de/bitbrain/braingdx/world/GameWorld.java:248-256 | after a tick on a world with nothing queued, the next safe point removes exactly the evicted candidates, in candidate order |
| `UpdateProperties.EvictionTellsEqualFieldsApart` | core/src/main/java/de/bitbrain/braingdx/world/GameWorld.java:252 | the bounds test sees the object, not only its id and flags: of two candidates with equal fields, the one outside the bounds is evicted and the other is kept |
| `UpdateProperties.QueryRectAtOrigin` | core/src/main/java/de/bitbrain/braingdx/world/GameWorld.java:430-437 | a 20×20 camera at the origin of a 100×100 world queries (0, 0, 22, 22) |
| `UpdateProperties.QueryRectInside` | core/src/main/java/de/bitbrain/braingdx/world/GameWorld.java:423-429 | a camera well inside the world queries the padded rectangle unchanged, (38, 38, 24, 24) |
| `UpdateProperties.QueryRectAtFarCorner` | core/src/main/java/de/bitbrain/braingdx/world/GameWorld.java:438-445 | a camera at the far corner is clamped to (88, 88, 12, 12) |
| `GameObjects.New` | braingdx/src/de/bitbrain/braingdx/GameObject.java:32-47 | a new object has zero position, last position and dimensions, id "", scale (1, 1), white colour and type 0 |
| `GameObjects.SetPosition` | braingdx/src/de/bitbrain/braingdx/GameObject.java:66-71 | the old position becomes the last position, the new position is (x, y), and nothing else changes |
| `GameObjects.Move` | braingdx/src/de/bitbrain/braingdx/GameObject.java:62-64 | moving shifts the position and both edges by the offsets, keeps the dimensions, and records the pre-move position as the last position |
| `GameObjects.SetDimensions` | braingdx/src/de/bitbrain/braingdx/GameObject.java:57-60 | width and height are set, the edges follow from the unchanged position, and nothing else changes |
| `GameObjects.SetColor` | braingdx/src/de/bitbrain/braingdx/GameObject.java:117-119 | libGDX `Color.set` clamps: every stored component lies in [0, 1]; an in-range argument is stored as given, one below 0 as 0 and one above 1 as 1. Nothing but the colour changes |
| `GameObjects.SetColorClampsExample` | braingdx/src/de/bitbrain/braingdx/GameObject.java:117-119 | `setColor(2, -1, 0.5, 1)` stores (1, 0, 0.5, 1) |
| `GameObjects.SetColorFrom` | braingdx/src/de/bitbrain/braingdx/GameObject.java:113-115 | the copy goes through the clamping `setColor`: the stored colour is in [0, 1] and equals the given one when that is in range. Nothing but the colour changes |
| `GameObjects.SetOwnColor` | braingdx/src/de/bitbrain/braingdx/GameObject.java:113-119 | copying an object's stored colour back onto it changes nothing, since a clamped colour is in range |
| `GameObjects.SetType` | braingdx/src/de/bitbrain/braingdx/GameObject.java:49-51 | the type is set and nothing else changes |
| `GameObjects.SetId` | braingdx/src/de/bitbrain/braingdx/GameObject.java:101-103 | the id is set and nothing else changes |
| `GameObjects.Reset` | braingdx/src/de/bitbrain/braingdx/GameObject.java:125-136 | position, last position, dimensions, id, scale and colour return to the constructor defaults, and the type is kept |
| `GameObjects.ResetIdempotent` | braingdx/src/de/bitbrain/braingdx/GameObject.java:125-136 | resetting twice is resetting once |
| `GameObjects.ResetAfterMutators` | braingdx/src/de/bitbrain/braingdx/GameObject.java:125-136 | a reset erases what the mutators did. The result is a new object that was only given the type |
| `GameObjects.MoveTwice` | braingdx/src/de/bitbrain/braingdx/GameObject.java:62-71 | two moves add up. The last position is the one between them |

## Left out

- Logging through `Gdx.app.debug` and `Gdx.app.error` is output with no effect on the world, so it is not modelled.
- `QuadTree` is not part of this model. `retrieve` is a function parameter that may only answer inserted objects. The tree's `clear` and `insert`, and the bounds rectangle that feeds only the tree, are not modelled.
- `Group` is not part of this model. `getAll` lists the groups in key-creation order, each group in insertion order. `remove` takes out every copy of the object.
- `Pool` is not part of this model. `obtain` pops the most recently freed object or creates one, and the state it hands out is the parameter `handed`. `free` appends to the free list. `pool.clear()` empties that list.
- World.RemoveInternally: the `reset` that libGDX `Pool.free` applies to a freed object is not modelled, because the world-package object class and its `reset` are not part of this model. A freed object keeps its id and its "updateable" attribute in `store` until `obtain` hands it out again as `handed`. This is visible only where something still refers to a freed object: the freed-but-grouped object of `WorldProperties.RemoveQueuedBeforeLazyAdd` keeps its old id in the pairwise id test and its old flag in the status rule, and a `remove(objects)` or `clearGroup` that names one object twice reads its old id the second time, where Java reads the id after the reset.
- World.RemoveInternally: the timing of the `onRemove` callbacks relative to the group and pool updates is not represented. In the source they fire after the object is unregistered but while it is still grouped and not yet freed; the model returns the callbacks as a trace next to the final world, so a listener's view of the world during the callback is not stated.
- World.AddObject: the timing of the `onAdd` callbacks is not represented either. In the source an immediate `onAdd` fires after the object is registered and grouped; the trace does not record what a listener would see at that moment.
- The world-package `GameObject` is not part of this model. Only id, active, persistent and the "updateable" attribute are kept. The bounds policy `isInBounds` is asked about the object's handle together with those fields, so two objects whose kept fields agree can still get different verdicts, as objects at different positions do. Object equality in `contains` and `removeValue` is identity of the handle or listener.
- `getObjects(comparator, …)` (GameWorld.java:287-306) is not modelled: it sorts shared buffers in place with a comparator that is not part of this model. `World.GetObjects` covers the null-comparator form.
- `setCamera`, `setBounds` and `getBounds` are left out as operations. The camera and the bounds are explicit parameters of `update`, and a world without a camera is not modelled.
- Java `float` arithmetic is modelled as exact reals. The padding `0.1f` is the real 1/10, and float rounding is not modelled.
- Listeners are passive. A callback that calls back into the world during a loop is not modelled.
- Callbacks and mutators are assumed to return normally; exceptions are not modelled. The source catches nothing, so in Java a throwing `onUpdate` aborts `update` (later candidates get no callbacks and no eviction runnable is posted), a throwing immediate `onAdd` leaves the object registered and grouped with the remaining listeners untold, and a throwing mutator leaves the obtained object out of the pool but unregistered. The model always returns the complete trace.
- `Gdx.app.postRunnable` is the world's own FIFO queue. Runnables posted by other code are not modelled.
- The camera tracking, shader, animation, event bus, UI parameter and demo screen classes are not part of this model: they hold no world logic.
- UpdateProperties.StatusPassExact requires that `getAll()` lists each object once. An object in two groups is visited twice by the status pass, and the exact event set is not stated for that case.
- UpdateProperties.StatusPassFlags requires that each object is listed once in `getAll()`, for the same reason.
- UpdateProperties.StatusPassOncePerListener requires distinct objects and distinct listeners. A listener registered twice hears each change twice.
- UpdateProperties.SelectCandidatesStatus requires that each object is listed once in `getAll()`.
- UpdateProperties.UpdateStatusChanges requires that each object is listed once in `getAll()`.
- WorldProperties.RemoveAllRegisteredEvents is stated for distinct registered ids only. For any list of ids, `World.RemoveAllEvents` gives the weaker bound: only `onRemove`, only to registered listeners.
- WorldProperties.RemoveAllRegisteredSize is stated for distinct registered ids only. For any list of ids, `World.RemoveAllIdentity` gives exactly which ids stay registered.
- WorldProperties.ClearRegisteredGroup is stated for groups whose members are registered under their own ids, because the duplicate-id quirk of `addObject` can break that link. `World.ClearGroup` covers every group.

=== FILE: game_object.dfy ===
/**
 * The legacy `GameObject` value class: position with last-position
 * bookkeeping, dimensions, derived right/bottom edges, colour, scale, id and
 * type tag, and `reset` back to the constructor defaults. Java floats are
 * modelled as reals.
 */
module GameObjects {

  datatype Vec2 = Vec2(x: real, y: real)

  datatype Color = Color(r: real, g: real, b: real, a: real)

  const Zero: Vec2 := Vec2(0.0, 0.0)
  const White: Color := Color(1.0, 1.0, 1.0, 1.0)

  /** `type` is a Java `int`; `typeId` because `type` is a Dafny keyword. */
  datatype GameObject = GameObject(
    position: Vec2,
    dimensions: Vec2,
    lastPosition: Vec2,
    id: string,
    typeId: int,
    color: Color,
    scale: Vec2)

  /** The fields `reset` restores hold their constructor values. */
  predicate HasDefaults(o: GameObject) {
    && o.position == Zero && o.lastPosition == Zero && o.dimensions == Zero
    && o.id == "" && o.scale == Vec2(1.0, 1.0) && o.color == White
  }

  /** `new GameObject()`. */
  function New(): (o: GameObject)
    ensures HasDefaults(o) && o.typeId == 0
  {
    GameObject(Zero, Zero, Zero, "", 0, White, Vec2(1.0, 1.0))
  }

  function Left(o: GameObject): real { o.position.x }
  function Top(o: GameObject): real { o.position.y }
  function Width(o: GameObject): real { o.dimensions.x }
  function Height(o: GameObject): real { o.dimensions.y }

  /** `getRight()`. */
  function Right(o: GameObject): real {
    Left(o) + Width(o)
  }

  /** `getBottom()`. */
  function Bottom(o: GameObject): real {
    Top(o) + Height(o)
  }

  /** `setPosition(x, y)`: the old position becomes the last position. */
  function SetPosition(o: GameObject, x: real, y: real): (r: GameObject)
    ensures Left(r) == x && Top(r) == y
    ensures r.lastPosition == o.position
    ensures r.(position := o.position, lastPosition := o.lastPosition) == o
  {
    o.(lastPosition := o.position, position := Vec2(x, y))
  }

  /** `move(dx, dy)`: `setPosition` relative to the current position. */
  function Move(o: GameObject, dx: real, dy: real): (r: GameObject)
    ensures Left(r) == Left(o) + dx && Top(r) == Top(o) + dy
    ensures r.lastPosition == o.position
    ensures Width(r) == Width(o) && Height(r) == Height(o)
    ensures Right(r) == Right(o) + dx && Bottom(r) == Bottom(o) + dy
    ensures r.(position := o.position, lastPosition := o.lastPosition) == o
  {
    SetPosition(o, o.position.x + dx, o.position.y + dy)
  }

  /** `setDimensions(w, h)`: the position is left alone. */
  function SetDimensions(o: GameObject, width: real, height: real): (r: GameObject)
    ensures Width(r) == width && Height(r) == height
    ensures Right(r) == Left(o) + width && Bottom(r) == Top(o) + height
    ensures r.(dimensions := o.dimensions) == o
  {
    o.(dimensions := Vec2(width, height))
  }

  /** libGDX `Color.clamp()`: a component below 0 becomes 0, one above 1 becomes 1. */
  function Clamp01(x: real): real {
    if x < 0.0 then 0.0 else if x > 1.0 then 1.0 else x
  }

  /** Every component lies in [0, 1]. */
  predicate InUnit(c: Color) {
    0.0 <= c.r <= 1.0 && 0.0 <= c.g <= 1.0 && 0.0 <= c.b <= 1.0 && 0.0 <= c.a <= 1.0
  }

  /** `x` is what clamping to [0, 1] makes of `v`: `v` itself when it is in range, else the nearer bound. */
  predicate ClampedFrom(x: real, v: real) {
    && 0.0 <= x <= 1.0
    && (0.0 <= v <= 1.0 ==> x == v)
    && (v < 0.0 ==> x == 0.0)
    && (v > 1.0 ==> x == 1.0)
  }

  /**
   * `setColor(r, g, b, a)`: libGDX `Color.set` stores the four components and
   * then clamps each of them to [0, 1].
   */
  function SetColor(o: GameObject, r: real, g: real, b: real, a: real): (res: GameObject)
    ensures InUnit(res.color)
    ensures ClampedFrom(res.color.r, r) && ClampedFrom(res.color.g, g)
    ensures ClampedFrom(res.color.b, b) && ClampedFrom(res.color.a, a)
    ensures res.(color := o.color) == o
  {
    o.(color := Color(Clamp01(r), Clamp01(g), Clamp01(b), Clamp01(a)))
  }

  /** `setColor(Color)`: goes through `setColor(r, g, b, a)`, so an in-range colour is copied exactly. */
  function SetColorFrom(o: GameObject, c: Color): (res: GameObject)
    ensures InUnit(res.color)
    ensures InUnit(c) ==> res.color == c
    ensures res.(color := o.color) == o
  {
    SetColor(o, c.r, c.g, c.b, c.a)
  }

  /** Setting an object's colour to the colour it already has changes nothing. */
  lemma SetOwnColor(o: GameObject, r: real, g: real, b: real, a: real)
    ensures var p := SetColor(o, r, g, b, a); SetColorFrom(p, p.color) == p
  {
  }

  /** Out-of-range components are clamped: (2, -1, 0.5, 1) is stored as (1, 0, 0.5, 1). */
  lemma SetColorClampsExample(o: GameObject)
    ensures SetColor(o, 2.0, -1.0, 0.5, 1.0).color == Color(1.0, 0.0, 0.5, 1.0)
  {
  }

  /** `setType(typeId)`. */
  function SetType(o: GameObject, typeId: int): (r: GameObject)
    ensures r.typeId == typeId && r.(typeId := o.typeId) == o
  {
    o.(typeId := typeId)
  }

  /** `setId(id)`. */
  function SetId(o: GameObject, id: string): (r: GameObject)
    ensures r.id == id && r.(id := o.id) == o
  {
    o.(id := id)
  }

  /** `reset()`: every field back to the constructor value except the type tag. */
  function Reset(o: GameObject): (r: GameObject)
    ensures HasDefaults(r)
    ensures r.typeId == o.typeId
    ensures r == New().(typeId := o.typeId)
  {
    o.(lastPosition := Zero, position := Zero, dimensions := Zero, id := "", scale := Vec2(1.0, 1.0), color := White)
  }

  /** Resetting twice is resetting once. */
  lemma ResetIdempotent(o: GameObject)
    ensures Reset(Reset(o)) == Reset(o)
  {
  }

  /** A reset object is indistinguishable from a new one that was given the same type. */
  lemma ResetAfterMutators(o: GameObject, x: real, y: real, w: real, h: real, c: Color, id: string)
    ensures Reset(SetId(SetColorFrom(SetDimensions(SetPosition(o, x, y), w, h), c), id)) == Reset(o)
    ensures Reset(o) == SetType(New(), o.typeId)
  {
  }

  /** Two moves compose: the position adds up and the last position is the one between them. */
  lemma MoveTwice(o: GameObject, dx1: real, dy1: real, dx2: real, dy2: real)
    ensures Move(Move(o, dx1, dy1), dx2, dy2).position == Move(o, dx1 + dx2, dy1 + dy2).position
    ensures Move(Move(o, dx1, dy1), dx2, dy2).lastPosition == Move(o, dx1, dy1).position
  {
  }
}

=== FILE: groups.dfy ===
/**
 * The group index the world keeps its objects in: named groups, each an
 * insertion-ordered sequence of members. The Java class behind it is not part
 * of this model; this module gives it the behaviour the world relies on.
 */
module Groups {
  import opened Wrappers
  import opened Objects

  /**
   * Group keys. Java accepts any object as a key and compares keys by
   * equality; the model stands for them by strings, which keeps that equality.
   */
  type GroupKey = string

  /** One named group. */
  datatype Entry = Entry(key: GroupKey, members: seq<Handle>)

  /** All groups, in the order their keys were first used. */
  type GroupIndex = seq<Entry>

  /** No key names two groups. */
  predicate DistinctKeys(g: GroupIndex) {
    forall i, j :: 0 <= i < j < |g| ==> g[i].key != g[j].key
  }

  /** The position of the group named `k`. */
  function Find(g: GroupIndex, k: GroupKey): (r: Option<nat>)
    ensures r.Some? ==> r.value < |g| && g[r.value].key == k
    ensures r.Some? ==> forall i :: 0 <= i < r.value ==> g[i].key != k
    ensures r.None? ==> forall i :: 0 <= i < |g| ==> g[i].key != k
  {
    if g == [] then None
    else if g[0].key == k then Some(0)
    else
      var rest := Find(g[1..], k);
      if rest.None? then None else Some(rest.value + 1)
  }

  /** `getGroup(k)`: the members of group `k`, or `None` (Java `null`) when there is no such group. */
  function GetGroup(g: GroupIndex, k: GroupKey): (r: Option<seq<Handle>>)
    ensures r.None? <==> forall i :: 0 <= i < |g| ==> g[i].key != k
    ensures DistinctKeys(g) ==> forall i :: 0 <= i < |g| && g[i].key == k ==> r == Some(g[i].members)
  {
    match Find(g, k)
    case None => None
    case Some(i) => Some(g[i].members)
  }

  /** `getAll()`: the members of every group, group after group. */
  function GetAll(g: GroupIndex): seq<Handle>
  {
    if g == [] then [] else g[0].members + GetAll(g[1..])
  }

  lemma {:induction false} GetAllAppend(a: GroupIndex, b: GroupIndex)
    decreases |a|
    ensures GetAll(a + b) == GetAll(a) + GetAll(b)
  {
    if a != [] {
      assert (a + b)[0] == a[0];
      assert (a + b)[1..] == a[1..] + b;
      GetAllAppend(a[1..], b);
    } else {
      assert a + b == b;
    }
  }

  /** An object is in `getAll()` exactly when some group holds it. */
  lemma {:induction false} InGetAll(g: GroupIndex, v: Handle)
    decreases |g|
    ensures v in GetAll(g) <==> exists i :: 0 <= i < |g| && v in g[i].members
  {
    if g != [] {
      InGetAll(g[1..], v);
      if v in GetAll(g[1..]) {
        var i :| 0 <= i < |g[1..]| && v in g[1..][i].members;
        assert v in g[i + 1].members;
      }
      if exists i :: 0 <= i < |g| && v in g[i].members {
        var i :| 0 <= i < |g| && v in g[i].members;
        if i > 0 {
          assert v in g[1..][i - 1].members;
        }
      }
    }
  }
  /** `InGetAll` for every object at once. */
  lemma InGetAllEvery(g: GroupIndex)
    ensures forall v :: v in GetAll(g) <==> exists i :: 0 <= i < |g| && v in g[i].members
  {
    forall v ensures v in GetAll(g) <==> exists i :: 0 <= i < |g| && v in g[i].members {
      InGetAll(g, v);
    }
  }


  /** `getAll()` split around the group at position `i`. */
  lemma {:induction false} GetAllAround(g: GroupIndex, i: nat)
    requires i < |g|
    ensures GetAll(g) == GetAll(g[..i]) + g[i].members + GetAll(g[i + 1..])
  {
    var tail := [g[i]] + g[i + 1..];
    assert g == g[..i] + tail;
    GetAllAppend(g[..i], tail);
    assert tail[0] == g[i] && tail[1..] == g[i + 1..];
    assert GetAll(tail) == g[i].members + GetAll(g[i + 1..]);
  }

  /** `Find` answers the first position carrying the key. */
  lemma FindFirst(g: GroupIndex, k: GroupKey, j: nat)
    requires j < |g| && g[j].key == k
    requires forall i :: 0 <= i < j ==> g[i].key != k
    ensures Find(g, k) == Some(j)
  {
    var r := Find(g, k);
    assert r.Some?;
    assert !(r.value < j);
  }

  /** Lookups by key in an index with distinct keys, through the position of the key. */
  lemma GetGroupAt(g: GroupIndex, j: nat)
    requires DistinctKeys(g) && j < |g|
    ensures GetGroup(g, g[j].key) == Some(g[j].members)
  {
  }

  /** `addToGroup(k, v)`: appends `v` to group `k`, creating the group at the end when it is new. */
  function AddToGroup(g: GroupIndex, k: GroupKey, v: Handle): (r: GroupIndex)
    ensures DistinctKeys(g) ==> DistinctKeys(r)
    ensures GetGroup(r, k) == Some(GetGroup(g, k).GetOr([]) + [v])
    ensures forall k' :: k' != k ==> GetGroup(r, k') == GetGroup(g, k')
    ensures multiset(GetAll(r)) == multiset(GetAll(g)) + multiset{v}
  {
    match Find(g, k)
    case None =>
      var r := g + [Entry(k, [v])];
      AddNewGroup(g, k, v);
      assert GetGroup(g, k) == None && [] + [v] == [v];
      r
    case Some(i) =>
      var r := g[i := Entry(k, g[i].members + [v])];
      AddToExistingGroup(g, k, v, i);
      assert GetGroup(g, k) == Some(g[i].members);
      r
  }

  lemma AddNewGroup(g: GroupIndex, k: GroupKey, v: Handle)
    requires Find(g, k).None?
    ensures DistinctKeys(g) ==> DistinctKeys(g + [Entry(k, [v])])
    ensures GetGroup(g + [Entry(k, [v])], k) == Some([v])
    ensures forall k' :: k' != k ==> GetGroup(g + [Entry(k, [v])], k') == GetGroup(g, k')
    ensures multiset(GetAll(g + [Entry(k, [v])])) == multiset(GetAll(g)) + multiset{v}
  {
    var r := g + [Entry(k, [v])];
    FindFirst(r, k, |g|);
    forall k' | k' != k
      ensures GetGroup(r, k') == GetGroup(g, k')
    {
      var f := Find(g, k');
      if f.Some? {
        FindFirst(r, k', f.value);
      }
    }
    GetAllAppend(g, [Entry(k, [v])]);
    assert GetAll([Entry(k, [v])]) == [v] by {
      assert [Entry(k, [v])][1..] == [];
    }
  }

  lemma AddToExistingGroup(g: GroupIndex, k: GroupKey, v: Handle, i: nat)
    requires Find(g, k) == Some(i)
    ensures DistinctKeys(g) ==> DistinctKeys(g[i := Entry(k, g[i].members + [v])])
    ensures GetGroup(g[i := Entry(k, g[i].members + [v])], k) == Some(g[i].members + [v])
    ensures forall k' :: k' != k ==> GetGroup(g[i := Entry(k, g[i].members + [v])], k') == GetGroup(g, k')
    ensures multiset(GetAll(g[i := Entry(k, g[i].members + [v])])) == multiset(GetAll(g)) + multiset{v}
  {
    AddToExistingKeys(g, k, v, i);
    AddToExistingMembers(g, v, i);
  }

  lemma AddToExistingKeys(g: GroupIndex, k: GroupKey, v: Handle, i: nat)
    requires Find(g, k) == Some(i)
    ensures DistinctKeys(g) ==> DistinctKeys(g[i := Entry(k, g[i].members + [v])])
    ensures GetGroup(g[i := Entry(k, g[i].members + [v])], k) == Some(g[i].members + [v])
    ensures forall k' :: k' != k ==> GetGroup(g[i := Entry(k, g[i].members + [v])], k') == GetGroup(g, k')
  {
    var r := g[i := Entry(k, g[i].members + [v])];
    assert forall j :: 0 <= j < |r| ==> r[j].key == g[j].key;
    FindFirst(r, k, i);
    forall k' | k' != k
      ensures GetGroup(r, k') == GetGroup(g, k')
    {
      var f := Find(g, k');
      if f.Some? {
        FindFirst(r, k', f.value);
      }
    }
  }

  lemma AddToExistingMembers(g: GroupIndex, v: Handle, i: nat)
    requires i < |g|
    ensures multiset(GetAll(g[i := Entry(g[i].key, g[i].members + [v])])) == multiset(GetAll(g)) + multiset{v}
  {
    var r := g[i := Entry(g[i].key, g[i].members + [v])];
    GetAllAround(g, i);
    GetAllAround(r, i);
    assert r[..i] == g[..i] && r[i + 1..] == g[i + 1..];
  }

  /** Every element of `s` except `v`, in order. */
  function Without(s: seq<Handle>, v: Handle): seq<Handle>
    decreases |s|
  {
    if s == [] then [] else (if s[0] == v then [] else [s[0]]) + Without(s[1..], v)
  }

  /** Every copy of `v` goes, and every other element stays, as often as before. */
  lemma {:induction false} WithoutCount(s: seq<Handle>, v: Handle)
    decreases |s|
    ensures multiset(Without(s, v)) == multiset(s)[v := 0]
    ensures forall x :: x in Without(s, v) <==> x in s && x != v
  {
    if s != [] {
      var tail := s[1..];
      assert s == [s[0]] + tail;
      WithoutCount(tail, v);
      var head := if s[0] == v then [] else [s[0]];
      assert Without(s, v) == head + Without(tail, v);
      assert multiset(Without(s, v)) == multiset(head) + multiset(Without(tail, v));
    }
    assert forall x :: x in Without(s, v) <==> x in multiset(Without(s, v));
  }

  lemma {:induction false} WithoutAppend(a: seq<Handle>, b: seq<Handle>, v: Handle)
    decreases |a|
    ensures Without(a + b, v) == Without(a, v) + Without(b, v)
  {
    if a != [] {
      var x := a[0];
      var head := if x == v then [] else [x];
      assert (a + b)[0] == x;
      assert (a + b)[1..] == a[1..] + b;
      WithoutAppend(a[1..], b, v);
      assert Without(a + b, v) == head + (Without(a[1..], v) + Without(b, v));
      assert Without(a, v) == head + Without(a[1..], v);
    } else {
      assert a + b == b;
    }
  }

  /** `remove(v)`: takes `v` out of every group; the groups themselves stay. */
  function Remove(g: GroupIndex, v: Handle): (r: GroupIndex)
    ensures |r| == |g|
    ensures forall i :: 0 <= i < |g| ==> r[i] == Entry(g[i].key, Without(g[i].members, v))
  {
    if g == [] then [] else [Entry(g[0].key, Without(g[0].members, v))] + Remove(g[1..], v)
  }

  /** After `remove(v)` no group holds `v`, and every other member is still where it was. */
  lemma {:induction false} GetAllRemove(g: GroupIndex, v: Handle)
    decreases |g|
    ensures GetAll(Remove(g, v)) == Without(GetAll(g), v)
    ensures multiset(GetAll(Remove(g, v))) == multiset(GetAll(g))[v := 0]
  {
    if g != [] {
      assert Remove(g, v)[1..] == Remove(g[1..], v);
      GetAllRemove(g[1..], v);
      WithoutAppend(g[0].members, GetAll(g[1..]), v);
    }
    WithoutCount(GetAll(g), v);
  }

  /** `remove(v)` keeps every key, so group lookups still find the same groups, minus `v`. */
  lemma RemoveKeepsKeys(g: GroupIndex, v: Handle)
    ensures DistinctKeys(g) ==> DistinctKeys(Remove(g, v))
    ensures forall k :: GetGroup(Remove(g, v), k).Some? <==> GetGroup(g, k).Some?
  {
    var r := Remove(g, v);
    assert forall i :: 0 <= i < |r| ==> r[i].key == g[i].key;
  }

  /** `clearGroup(k)` on the index: drops group `k` and its membership list. */
  function ClearGroup(g: GroupIndex, k: GroupKey): (r: GroupIndex)
    requires DistinctKeys(g)
    ensures DistinctKeys(r)
    ensures GetGroup(r, k) == None
    ensures forall k' :: k' != k ==> GetGroup(r, k') == GetGroup(g, k')
    ensures multiset(GetAll(r)) == multiset(GetAll(g)) - multiset(GetGroup(g, k).GetOr([]))
  {
    match Find(g, k)
    case None => g
    case Some(i) =>
      DropGroup(g, k, i);
      g[..i] + g[i + 1..]
  }

  lemma DropGroup(g: GroupIndex, k: GroupKey, i: nat)
    requires DistinctKeys(g) && Find(g, k) == Some(i)
    ensures DistinctKeys(g[..i] + g[i + 1..])
    ensures GetGroup(g[..i] + g[i + 1..], k) == None
    ensures forall k' :: k' != k ==> GetGroup(g[..i] + g[i + 1..], k') == GetGroup(g, k')
    ensures multiset(GetAll(g[..i] + g[i + 1..])) == multiset(GetAll(g)) - multiset(g[i].members)
  {
    DropGroupKeys(g, k, i);
    DropGroupMembers(g, i);
  }

  lemma DropGroupKeys(g: GroupIndex, k: GroupKey, i: nat)
    requires DistinctKeys(g) && Find(g, k) == Some(i)
    ensures DistinctKeys(g[..i] + g[i + 1..])
    ensures GetGroup(g[..i] + g[i + 1..], k) == None
    ensures forall k' :: k' != k ==> GetGroup(g[..i] + g[i + 1..], k') == GetGroup(g, k')
  {
    var r := g[..i] + g[i + 1..];
    DropGroupShift(g, i);
    DropGroupDistinct(g, k, i);
    forall j | 0 <= j < |r| ensures r[j].key != k {
      var j' := if j < i then j else j + 1;
      assert r[j] == g[j'] && j' != i;
    }
    forall k' | k' != k
      ensures GetGroup(r, k') == GetGroup(g, k')
    {
      var f := Find(g, k');
      if f.Some? {
        var j := f.value;
        var j' := if j < i then j else j - 1;
        assert r[j'] == g[j];
        GetGroupAt(r, j');
      } else {
        forall j | 0 <= j < |r| ensures r[j].key != k' {
          var j'' := if j < i then j else j + 1;
          assert r[j] == g[j''];
        }
      }
    }
  }

  lemma DropGroupDistinct(g: GroupIndex, k: GroupKey, i: nat)
    requires DistinctKeys(g) && i < |g| && g[i].key == k
    ensures DistinctKeys(g[..i] + g[i + 1..])
  {
    var r := g[..i] + g[i + 1..];
    DropGroupShift(g, i);
    forall a, b | 0 <= a < b < |r| ensures r[a].key != r[b].key {
      var a' := if a < i then a else a + 1;
      var b' := if b < i then b else b + 1;
      assert r[a] == g[a'] && r[b] == g[b'];
    }
  }

  /** Dropping position `i` shifts every later group down by one. */
  lemma DropGroupShift(g: GroupIndex, i: nat)
    requires i < |g|
    ensures |g[..i] + g[i + 1..]| == |g| - 1
    ensures forall j :: 0 <= j < |g| - 1 ==> (g[..i] + g[i + 1..])[j] == (if j < i then g[j] else g[j + 1])
  {
  }

  lemma DropGroupMembers(g: GroupIndex, i: nat)
    requires i < |g|
    ensures multiset(GetAll(g[..i] + g[i + 1..])) == multiset(GetAll(g)) - multiset(g[i].members)
  {
    GetAllAppend(g[..i], g[i + 1..]);
    GetAllAround(g, i);
  }
}

=== FILE: listeners.dfy ===
/**
 * The ordered listener registry and the events it receives. Listeners are
 * passive observers here: a callback is recorded as an event in a trace.
 */
module Listeners {
  import opened Objects

  /** The identity of a registered listener object. */
  type Listener = nat

  /** What a callback is told, without the listener it is told to. */
  datatype Notice =
    | OnAdd(obj: Handle)
    | OnRemove(obj: Handle)
    | OnUpdate(obj: Handle, delta: real)
    | OnPairUpdate(obj: Handle, other: Handle, delta: real)
    | OnStatusChange(obj: Handle, updateable: bool)
    | OnClear

  /** One callback invocation. */
  datatype Event = Event(listener: Listener, notice: Notice)

  /** The loop `for (i = 0; i < listeners.size; ++i) listeners.get(i).on...(...)`. */
  function Notify(ls: seq<Listener>, n: Notice): (r: seq<Event>)
    ensures |r| == |ls|
    ensures forall i :: 0 <= i < |ls| ==> r[i] == Event(ls[i], n)
    ensures forall e :: e in r <==> e.listener in ls && e.notice == n
  {
    if ls == [] then []
    else
      assert ls == [ls[0]] + ls[1..];
      [Event(ls[0], n)] + Notify(ls[1..], n)
  }

  /** `addListener`: the listener is notified after every earlier one. */
  function AddListener(ls: seq<Listener>, l: Listener): (r: seq<Listener>)
    ensures |r| == |ls| + 1 && r[..|ls|] == ls && r[|ls|] == l
  {
    ls + [l]
  }

  /** `removeListener`: drops the first registration of `l`, if any. */
  function RemoveListener(ls: seq<Listener>, l: Listener): (r: seq<Listener>)
    ensures l !in ls ==> r == ls
    ensures l in ls ==> |r| == |ls| - 1
  {
    if ls == [] then []
    else if ls[0] == l then
      assert ls == [ls[0]] + ls[1..];
      ls[1..]
    else
      assert ls == [ls[0]] + ls[1..];
      [ls[0]] + RemoveListener(ls[1..], l)
  }

  /** `removeListener` cuts out exactly the first registration and keeps the order of the rest. */
  lemma {:induction false} RemoveListenerCutsFirst(ls: seq<Listener>, l: Listener) returns (i: nat)
    requires l in ls
    decreases |ls|
    ensures i < |ls| && ls[i] == l && l !in ls[..i]
    ensures RemoveListener(ls, l) == ls[..i] + ls[i + 1..]
  {
    if ls[0] == l {
      i := 0;
    } else {
      var tail := ls[1..];
      assert l in tail by { assert ls == [ls[0]] + tail; }
      var j := RemoveListenerCutsFirst(tail, l);
      i := j + 1;
      assert ls[..i] == [ls[0]] + tail[..j];
      assert ls[i + 1..] == tail[j + 1..];
      assert RemoveListener(ls, l) == [ls[0]] + RemoveListener(tail, l);
      assert [ls[0]] + (tail[..j] + tail[j + 1..]) == ls[..i] + ls[i + 1..];
    }
  }

  /** `removeListener` drops one registration of `l` and keeps every other one. */
  lemma {:induction false} RemoveListenerCount(ls: seq<Listener>, l: Listener)
    decreases |ls|
    ensures multiset(RemoveListener(ls, l)) == multiset(ls) - multiset{l}
  {
    if ls != [] {
      var tail := ls[1..];
      assert ls == [ls[0]] + tail;
      if ls[0] != l {
        RemoveListenerCount(tail, l);
        assert RemoveListener(ls, l) == [ls[0]] + RemoveListener(tail, l);
      }
    }
  }

  /** Registering a new listener and removing it again restores the registry. */
  lemma {:induction false} RemoveAddedListener(ls: seq<Listener>, l: Listener)
    requires l !in ls
    ensures RemoveListener(AddListener(ls, l), l) == ls
  {
    if ls != [] {
      assert AddListener(ls, l)[1..] == AddListener(ls[1..], l);
      RemoveAddedListener(ls[1..], l);
    }
  }
}

=== FILE: objects.dfy ===
/**
 * The world-package game object as the world manager sees it. Its class is not
 * part of this model; only the fields the manager reads or writes are kept.
 */
module Objects {
  import opened Wrappers

  /** A reference to a pooled object: an index into the world's object store. */
  type Handle = nat

  /**
   * `updateable` is the entry of the object's attribute bag under the key
   * "updateable": `None` while the attribute was never set.
   */
  datatype WorldObject = WorldObject(
    id: string,
    active: bool,
    persistent: bool,
    updateable: Option<bool>)

  /** The attribute read with default: `getAttribute("updateable", false)`. */
  function UpdateableFlag(o: WorldObject): bool {
    o.updateable.GetOr(false)
  }

  /** Every handle of `hs` refers into a store of `n` objects. */
  predicate HandlesBelow(hs: seq<Handle>, n: nat) {
    forall h :: h in hs ==> h < n
  }

  lemma HandlesBelowAppend(a: seq<Handle>, b: seq<Handle>, n: nat)
    requires HandlesBelow(a, n) && HandlesBelow(b, n)
    ensures HandlesBelow(a + b, n)
  {
  }

  lemma HandlesBelowTail(a: seq<Handle>, n: nat)
    requires HandlesBelow(a, n) && a != []
    ensures a[0] < n && HandlesBelow(a[1..], n)
  {
    assert a[0] in a;
    forall x | x in a[1..] ensures x < n {
      assert x in a;
    }
  }

  lemma HandlesBelowSlice(a: seq<Handle>, i: nat, j: nat, n: nat)
    requires HandlesBelow(a, n) && i <= j <= |a|
    ensures HandlesBelow(a[i..j], n)
  {
    forall x | x in a[i..j] ensures x < n {
      var k :| i <= k < j && a[k] == x;
      assert x in a;
    }
  }

  /** `s` holds no element twice. */
  predicate NoDup<T(==)>(s: seq<T>) {
    forall i, j :: 0 <= i < j < |s| ==> s[i] != s[j]
  }

  lemma NoDupTail<T>(s: seq<T>)
    requires NoDup(s) && s != []
    ensures NoDup(s[1..]) && s[0] !in s[1..]
  {
    var tail := s[1..];
    forall i, j | 0 <= i < j < |tail| ensures tail[i] != tail[j] {
      assert tail[i] == s[i + 1] && tail[j] == s[j + 1];
    }
    forall j | 0 <= j < |tail| ensures tail[j] != s[0] {
      assert tail[j] == s[j + 1];
    }
  }
}

=== FILE: update.dfy ===
/**
 * The per-tick pipeline of `GameWorld.update(delta)`: candidate selection
 * (`updateUpdatableObjects`), eviction of out-of-bounds objects, per-object
 * update dispatch and pairwise dispatch.
 *
 * The quad tree is an oracle `retrieve`: given the inserted objects and the
 * query rectangle it answers some of the inserted objects. The world bounds'
 * `isInBounds` is the uninterpreted `inBounds` of a `Bounds` value; it is asked
 * about the object's handle as well as its kept fields, since the handle stands
 * for everything of the object this model does not keep, its position first.
 */
module Update {
  import opened Wrappers
  import opened Objects
  import opened Listeners
  import Groups
  import opened World

  /** Below this many grouped objects every object is a candidate. */
  const QuadTreeThreshold: nat := 50

  /** The share of the viewport added on each side of the query rectangle. */
  const PaddingPercentage: real := 0.1

  /** The viewport the camera exposes: left/top and the scaled width/height. */
  datatype Camera = Camera(left: real, top: real, scaledWidth: real, scaledHeight: real)

  datatype Rect = Rect(x: real, y: real, width: real, height: real)

  /** The `WorldBounds` policy. */
  datatype Bounds = Bounds(inBounds: (Handle, WorldObject) -> bool, worldWidth: real, worldHeight: real, offsetX: real, offsetY: real)

  /** The bounds a world starts with: everything is in bounds, the world has no extent. */
  function DefaultBounds(): (b: Bounds)
    ensures forall h, o :: b.inBounds(h, o)
    ensures b.worldWidth == 0.0 && b.worldHeight == 0.0
  {
    Bounds((_, _) => true, 0.0, 0.0, 0.0, 0.0)
  }

  /** The quad tree's `retrieve` only ever answers objects that were inserted. */
  ghost predicate RetrieveSound(retrieve: (seq<Handle>, Rect) -> seq<Handle>) {
    forall hs, q, h :: h in retrieve(hs, q) ==> h in hs
  }

  function Max(a: real, b: real): real { if a < b then b else a }
  function Min(a: real, b: real): real { if a < b then a else b }

  /** The camera rectangle grown by the padding share of its width and height. */
  function Padded(cam: Camera): (r: Rect)
    ensures r.x + r.width - (cam.left + cam.scaledWidth) == cam.left - r.x == PaddingPercentage * cam.scaledWidth
    ensures r.y + r.height - (cam.top + cam.scaledHeight) == cam.top - r.y == PaddingPercentage * cam.scaledHeight
  {
    Rect(
      cam.left - cam.scaledWidth * PaddingPercentage,
      cam.top - cam.scaledHeight * PaddingPercentage,
      cam.scaledWidth + cam.scaledWidth * (PaddingPercentage * 2.0),
      cam.scaledHeight + cam.scaledHeight * (PaddingPercentage * 2.0))
  }

  /**
   * The quad tree query rectangle: the padded viewport, clamped in four steps
   * (left, top, right, bottom) against the world's width and height.
   */
  function QueryRect(cam: Camera, worldWidth: real, worldHeight: real): (r: Rect)
    ensures r.x >= 0.0 && r.y >= 0.0
    ensures r.x + r.width <= worldWidth && r.y + r.height <= worldHeight
    // the right and bottom clamps shrink the rectangle without moving its corner
    ensures r.x == Max(0.0, Padded(cam).x) && r.y == Max(0.0, Padded(cam).y)
    ensures r.x + r.width == Min(Padded(cam).x + Padded(cam).width, worldWidth)
    ensures r.y + r.height == Min(Padded(cam).y + Padded(cam).height, worldHeight)
  {
    var p := Padded(cam);
    var a := if p.x < 0.0 then p.(width := p.width + p.x, x := 0.0) else p;
    var b := if a.y < 0.0 then a.(height := a.height + a.y, y := 0.0) else a;
    var c :=
      if b.x + b.width > worldWidth then
        var width := b.width - (b.x + b.width - worldWidth);
        b.(width := width, x := worldWidth - width)
      else b;
    var d :=
      if c.y + c.height > worldHeight then
        var height := c.height - (c.y + c.height - worldHeight);
        c.(height := height, y := worldHeight - height)
      else c;
    d
  }

  /**
   * The `onStatusChange` calls for one object: fired exactly when its stored
   * flag disagrees with its membership in the previous candidate buffer, and
   * carrying that membership.
   */
  function StatusNotices(o: WorldObject, h: Handle, was: bool, ls: seq<Listener>): (r: seq<Event>)
    ensures UpdateableFlag(o) != was ==> r == Notify(ls, OnStatusChange(h, was))
    ensures UpdateableFlag(o) == was ==> r == []
  {
    if !was && UpdateableFlag(o) then Notify(ls, OnStatusChange(h, false))
    else if was && !UpdateableFlag(o) then Notify(ls, OnStatusChange(h, true))
    else []
  }

  /** The stored flag after the status step: `true` when it was absent, else the previous membership. */
  function StatusStep(o: WorldObject, was: bool): (r: WorldObject)
    ensures r.(updateable := o.updateable) == o
    ensures r.updateable.Some?
    ensures o.updateable.Some? ==> UpdateableFlag(r) == was
    ensures o.updateable.None? ==> UpdateableFlag(r)
  {
    if o.updateable.None? then o.(updateable := Some(true)) else o.(updateable := Some(was))
  }

  /** The status pass over `getAll()`, one object after another, writing each flag back. */
  function StatusPass(store: seq<WorldObject>, all: seq<Handle>, prev: seq<Handle>, ls: seq<Listener>): (r: (seq<WorldObject>, seq<Event>))
    requires HandlesBelow(all, |store|)
    decreases |all|
    ensures |r.0| == |store|
    ensures forall h :: 0 <= h < |store| && h !in all ==> r.0[h] == store[h]
    ensures forall h :: 0 <= h < |store| ==> r.0[h].(updateable := store[h].updateable) == store[h]
    ensures forall e :: e in r.1 ==>
      && e.listener in ls && e.notice.OnStatusChange?
      && e.notice.obj in all && e.notice.updateable == (e.notice.obj in prev)
  {
    if all == [] then (store, [])
    else
      var h := all[0];
      assert h in all;
      var was := h in prev;
      assert forall x :: x in all[1..] ==> x in all;
      var rest := StatusPass(store[h := StatusStep(store[h], was)], all[1..], prev, ls);
      (rest.0, StatusNotices(store[h], h, was, ls) + rest.1)
  }

  /** Evicts when out of bounds and not persistent. */
  predicate Evicts(b: Bounds, h: Handle, o: WorldObject) {
    !b.inBounds(h, o) && !o.persistent
  }

  /** The pairwise `onUpdate(object, other, delta)` calls for subject `h` against `others`. */
  function PairNotices(store: seq<WorldObject>, h: Handle, others: seq<Handle>, ls: seq<Listener>, delta: real): (r: seq<Event>)
    requires h < |store| && HandlesBelow(others, |store|)
    decreases |others|
    ensures ls == [] ==> r == []
  {
    if others == [] then []
    else
      var o := others[0];
      assert o in others;
      assert forall x :: x in others[1..] ==> x in others;
      (if store[o].active && store[h].id != store[o].id then Notify(ls, OnPairUpdate(h, o, delta)) else [])
      + PairNotices(store, h, others[1..], ls, delta)
  }

  /** The subject meets exactly the active objects of `others` with another id, once per listener each. */
  lemma {:induction false} PairEvents(store: seq<WorldObject>, h: Handle, others: seq<Handle>, ls: seq<Listener>, delta: real)
    requires h < |store| && HandlesBelow(others, |store|)
    decreases |others|
    ensures forall e :: e in PairNotices(store, h, others, ls, delta) <==>
      && e.listener in ls && e.notice.OnPairUpdate?
      && e.notice.obj == h && e.notice.other in others && e.notice.delta == delta
      && store[e.notice.other].active && store[h].id != store[e.notice.other].id
  {
    if others != [] {
      var o := others[0];
      var tail := others[1..];
      assert o in others;
      assert HandlesBelow(tail, |store|) by {
        forall x | x in tail ensures x < |store| { assert x in others; }
      }
      PairEvents(store, h, tail, ls, delta);
      var head := if store[o].active && store[h].id != store[o].id then Notify(ls, OnPairUpdate(h, o, delta)) else [];
      var rest := PairNotices(store, h, tail, ls, delta);
      assert PairNotices(store, h, others, ls, delta) == head + rest;
      assert forall x :: x in others <==> x == o || x in tail by {
        assert others == [o] + tail;
      }
    }
  }

  /** Everything one candidate causes as the subject of the dispatch loop. */
  function SubjectNotices(store: seq<WorldObject>, cands: seq<Handle>, h: Handle, b: Bounds, ls: seq<Listener>, delta: real): (r: seq<Event>)
    requires h < |store| && HandlesBelow(cands, |store|)
    ensures ls == [] ==> r == []
    // with a listener registered, a subject is silent exactly when it is evicted
    ensures ls != [] ==> (r == [] <==> Evicts(b, h, store[h]))
  {
    if Evicts(b, h, store[h]) then []
    else Notify(ls, OnUpdate(h, delta)) + (if store[h].active then PairNotices(store, h, cands, ls, delta) else [])
  }

  /** An evicted subject causes no `onUpdate`; any other one causes one to every listener. */
  lemma SubjectUpdates(store: seq<WorldObject>, cands: seq<Handle>, h: Handle, b: Bounds, ls: seq<Listener>, delta: real)
    requires h < |store| && HandlesBelow(cands, |store|)
    ensures var r := SubjectNotices(store, cands, h, b, ls, delta);
      forall l: Listener, x: Handle, d: real :: Event(l, OnUpdate(x, d)) in r <==>
        l in ls && x == h && !Evicts(b, h, store[h]) && d == delta
  {
    PairEvents(store, h, cands, ls, delta);
  }

  /** A subject that is evicted or inactive meets nobody; any other one meets its pairwise partners. */
  lemma SubjectPairs(store: seq<WorldObject>, cands: seq<Handle>, h: Handle, b: Bounds, ls: seq<Listener>, delta: real)
    requires h < |store| && HandlesBelow(cands, |store|)
    ensures var r := SubjectNotices(store, cands, h, b, ls, delta);
      forall l: Listener, x: Handle, o: Handle, d: real :: Event(l, OnPairUpdate(x, o, d)) in r <==>
        && l in ls && x == h && !Evicts(b, h, store[h]) && store[h].active
        && o in cands && store[o].active && store[h].id != store[o].id && d == delta
  {
    PairEvents(store, h, cands, ls, delta);
  }

  /** A subject causes only update callbacks. */
  lemma SubjectKinds(store: seq<WorldObject>, cands: seq<Handle>, h: Handle, b: Bounds, ls: seq<Listener>, delta: real)
    requires h < |store| && HandlesBelow(cands, |store|)
    ensures forall e :: e in SubjectNotices(store, cands, h, b, ls, delta) ==> e.notice.OnUpdate? || e.notice.OnPairUpdate?
  {
    PairEvents(store, h, cands, ls, delta);
  }

  /**
   * The body of `update` after candidate selection, over the candidates
   * `subjects` (every subject meets every object of `cands` in the pairwise loop).
   */
  function Dispatch(store: seq<WorldObject>, cands: seq<Handle>, subjects: seq<Handle>, b: Bounds, ls: seq<Listener>, delta: real): (r: seq<Event>)
    requires HandlesBelow(cands, |store|) && HandlesBelow(subjects, |store|)
    decreases |subjects|
    ensures ls == [] ==> r == []
  {
    if subjects == [] then []
    else
      var h := subjects[0];
      assert h in subjects;
      assert forall x :: x in subjects[1..] ==> x in subjects;
      SubjectNotices(store, cands, h, b, ls, delta) + Dispatch(store, cands, subjects[1..], b, ls, delta)
  }

  /** The dispatch loop handles the first candidate, then the rest. */
  lemma DispatchCons(store: seq<WorldObject>, cands: seq<Handle>, subjects: seq<Handle>, b: Bounds, ls: seq<Listener>, delta: real)
    requires HandlesBelow(cands, |store|) && HandlesBelow(subjects, |store|) && subjects != []
    ensures subjects[0] < |store| && HandlesBelow(subjects[1..], |store|)
    ensures Dispatch(store, cands, subjects, b, ls, delta)
      == SubjectNotices(store, cands, subjects[0], b, ls, delta) + Dispatch(store, cands, subjects[1..], b, ls, delta)
  {
    HandlesBelowTail(subjects, |store|);
  }

  /** The dispatch loop tells each listener `onUpdate` for exactly the subjects that are not evicted. */
  lemma {:induction false} DispatchUpdates(store: seq<WorldObject>, cands: seq<Handle>, subjects: seq<Handle>, b: Bounds, ls: seq<Listener>, delta: real)
    requires HandlesBelow(cands, |store|) && HandlesBelow(subjects, |store|)
    decreases |subjects|
    ensures var r := Dispatch(store, cands, subjects, b, ls, delta);
      forall l: Listener, h: Handle, d: real :: Event(l, OnUpdate(h, d)) in r <==>
        l in ls && h in subjects && !Evicts(b, h, store[h]) && d == delta
  {
    if subjects == [] {
      assert Dispatch(store, cands, subjects, b, ls, delta) == [];
    } else {
      var h0 := subjects[0];
      var tail := subjects[1..];
      DispatchCons(store, cands, subjects, b, ls, delta);
      DispatchUpdates(store, cands, tail, b, ls, delta);
      SubjectUpdates(store, cands, h0, b, ls, delta);
      var head := SubjectNotices(store, cands, h0, b, ls, delta);
      var rest := Dispatch(store, cands, tail, b, ls, delta);
      assert subjects == [h0] + tail;
      forall l: Listener, h: Handle, d: real
        ensures Event(l, OnUpdate(h, d)) in head + rest <==>
          l in ls && h in subjects && !Evicts(b, h, store[h]) && d == delta
      {
        var e := Event(l, OnUpdate(h, d));
        assert h in subjects <==> h == h0 || h in tail by {
          assert subjects == [h0] + tail;
        }
        assert e in head + rest <==> e in head || e in rest;
        assert e in head <==> l in ls && h == h0 && !Evicts(b, h0, store[h0]) && d == delta;
        assert e in rest <==> l in ls && h in tail && !Evicts(b, h, store[h]) && d == delta;
      }
    }
  }

  /**
   * The pairwise `onUpdate` reaches each listener for exactly the pairs of an
   * active, not evicted subject and an active candidate of another id.
   */
  lemma {:induction false} DispatchPairs(store: seq<WorldObject>, cands: seq<Handle>, subjects: seq<Handle>, b: Bounds, ls: seq<Listener>, delta: real)
    requires HandlesBelow(cands, |store|) && HandlesBelow(subjects, |store|)
    decreases |subjects|
    ensures var r := Dispatch(store, cands, subjects, b, ls, delta);
      forall l: Listener, h: Handle, o: Handle, d: real :: Event(l, OnPairUpdate(h, o, d)) in r <==>
        && l in ls && h in subjects && !Evicts(b, h, store[h]) && store[h].active
        && o in cands && store[o].active && store[h].id != store[o].id && d == delta
  {
    if subjects == [] {
      assert Dispatch(store, cands, subjects, b, ls, delta) == [];
    } else {
      var h0 := subjects[0];
      var tail := subjects[1..];
      DispatchCons(store, cands, subjects, b, ls, delta);
      DispatchPairs(store, cands, tail, b, ls, delta);
      SubjectPairs(store, cands, h0, b, ls, delta);
      var head := SubjectNotices(store, cands, h0, b, ls, delta);
      var rest := Dispatch(store, cands, tail, b, ls, delta);
      assert subjects == [h0] + tail;
      forall l: Listener, h: Handle, o: Handle, d: real
        ensures Event(l, OnPairUpdate(h, o, d)) in head + rest <==>
          && l in ls && h in subjects && !Evicts(b, h, store[h]) && store[h].active
          && o in cands && store[o].active && store[h].id != store[o].id && d == delta
      {
        var e := Event(l, OnPairUpdate(h, o, d));
        assert h in subjects <==> h == h0 || h in tail by {
          assert subjects == [h0] + tail;
        }
        assert e in head + rest <==> e in head || e in rest;
        assert e in head <==>
          && l in ls && h == h0 && !Evicts(b, h0, store[h0]) && store[h0].active
          && o in cands && store[o].active && store[h0].id != store[o].id && d == delta;
        assert e in rest <==>
          && l in ls && h in tail && !Evicts(b, h, store[h]) && store[h].active
          && o in cands && store[o].active && store[h].id != store[o].id && d == delta;
      }
    }
  }

  /** The dispatch loop causes no other kind of event. */
  lemma {:induction false} DispatchKinds(store: seq<WorldObject>, cands: seq<Handle>, subjects: seq<Handle>, b: Bounds, ls: seq<Listener>, delta: real)
    requires HandlesBelow(cands, |store|) && HandlesBelow(subjects, |store|)
    decreases |subjects|
    ensures forall e :: e in Dispatch(store, cands, subjects, b, ls, delta) ==> e.notice.OnUpdate? || e.notice.OnPairUpdate?
  {
    if subjects == [] {
      assert Dispatch(store, cands, subjects, b, ls, delta) == [];
    } else {
      var h0 := subjects[0];
      var tail := subjects[1..];
      DispatchCons(store, cands, subjects, b, ls, delta);
      DispatchKinds(store, cands, tail, b, ls, delta);
      SubjectKinds(store, cands, h0, b, ls, delta);
      var head := SubjectNotices(store, cands, h0, b, ls, delta);
      var rest := Dispatch(store, cands, tail, b, ls, delta);
      forall e: Event | e in head + rest ensures e.notice.OnUpdate? || e.notice.OnPairUpdate? {
        assert e in head || e in rest;
      }
    }
  }

  /** The candidates the dispatch loop hands to `remove`, in candidate order. */
  function Evictions(store: seq<WorldObject>, cands: seq<Handle>, b: Bounds): (r: seq<Handle>)
    requires HandlesBelow(cands, |store|)
    decreases |cands|
    ensures forall h :: h in r <==> h in cands && Evicts(b, h, store[h])
    ensures |r| <= |cands|
  {
    if cands == [] then []
    else
      var h := cands[0];
      assert h in cands;
      assert cands == [h] + cands[1..];
      assert forall x :: x in cands[1..] ==> x in cands;
      (if Evicts(b, h, store[h]) then [h] else []) + Evictions(store, cands[1..], b)
  }

  /** One `remove(object)` runnable per evicted object, in eviction order. */
  function Removals(hs: seq<Handle>): (r: seq<Command>)
    ensures |r| == |hs| && forall i :: 0 <= i < |hs| ==> r[i] == DeferredRemoveObjects([hs[i]])
    ensures forall n :: HandlesBelow(hs, n) ==> CommandsOk(r, n)
  {
    var r := seq(|hs|, i requires 0 <= i < |hs| => DeferredRemoveObjects([hs[i]]));
    assert forall c :: c in r ==> exists i :: 0 <= i < |hs| && c == DeferredRemoveObjects([hs[i]]) && hs[i] in hs;
    r
  }

  /**
   * `updateUpdatableObjects`: below the threshold the buffer becomes `getAll()`
   * and nothing else happens; otherwise every grouped object goes through the
   * status step and the buffer becomes the quad tree's answer for the clamped
   * query rectangle.
   */
  function SelectCandidates(w: World, cam: Camera, b: Bounds, retrieve: (seq<Handle>, Rect) -> seq<Handle>): (r: Transition)
    requires Valid(w) && RetrieveSound(retrieve)
    ensures Valid(r.world)
    ensures r.world.(store := w.store, candidates := w.candidates) == w
    ensures |r.world.store| == |w.store|
    ensures forall h :: 0 <= h < |w.store| ==> r.world.store[h].(updateable := w.store[h].updateable) == w.store[h]
    ensures |Groups.GetAll(w.groups)| < QuadTreeThreshold ==>
      r.world == w.(candidates := Groups.GetAll(w.groups)) && r.events == []
    ensures |Groups.GetAll(w.groups)| >= QuadTreeThreshold ==>
      r.world.candidates == retrieve(Groups.GetAll(w.groups), QueryRect(cam, b.worldWidth, b.worldHeight))
    ensures forall e :: e in r.events ==>
      && e.listener in w.listeners && e.notice.OnStatusChange?
      && e.notice.obj in Groups.GetAll(w.groups) && e.notice.updateable == (e.notice.obj in w.candidates)
  {
    var all := Groups.GetAll(w.groups);
    if |all| < QuadTreeThreshold then
      Transition(w.(candidates := all), [])
    else
      var pass := StatusPass(w.store, all, w.candidates, w.listeners);
      var cands := retrieve(all, QueryRect(cam, b.worldWidth, b.worldHeight));
      assert HandlesBelow(cands, |w.store|) by {
        forall h | h in cands ensures h < |w.store| {
          assert h in all;
        }
      }
      Transition(w.(store := pass.0, candidates := cands), pass.1)
  }

  /** In a status trace followed by a dispatch trace, each kind of callback comes from its own part. */
  lemma StatusThenDispatch(status: seq<Event>, dispatch: seq<Event>)
    requires forall e :: e in status ==> e.notice.OnStatusChange?
    requires forall e :: e in dispatch ==> e.notice.OnUpdate? || e.notice.OnPairUpdate?
    ensures forall l: Listener, h: Handle, u: bool :: Event(l, OnStatusChange(h, u)) in status + dispatch <==>
      Event(l, OnStatusChange(h, u)) in status
    ensures forall l: Listener, h: Handle, d: real :: Event(l, OnUpdate(h, d)) in status + dispatch <==>
      Event(l, OnUpdate(h, d)) in dispatch
    ensures forall l: Listener, h: Handle, o: Handle, d: real :: Event(l, OnPairUpdate(h, o, d)) in status + dispatch <==>
      Event(l, OnPairUpdate(h, o, d)) in dispatch
  {
  }

  /** `update(delta)`. Evicted objects are only queued for removal. */
  function Update(w: World, delta: real, cam: Camera, b: Bounds, retrieve: (seq<Handle>, Rect) -> seq<Handle>): (r: Transition)
    requires Valid(w) && RetrieveSound(retrieve)
    ensures Valid(r.world)
    ensures r.world.identity == w.identity && r.world.groups == w.groups && r.world.listeners == w.listeners
    ensures r.world.free == w.free && |r.world.store| == |w.store|
    ensures |Groups.GetAll(w.groups)| < QuadTreeThreshold ==>
      r.world.candidates == Groups.GetAll(w.groups) && r.world.store == w.store
    ensures |Groups.GetAll(w.groups)| >= QuadTreeThreshold ==>
      r.world.candidates == retrieve(Groups.GetAll(w.groups), QueryRect(cam, b.worldWidth, b.worldHeight))
    // status changes only at or above the threshold, each carrying the previous membership
    ensures forall l: Listener, h: Handle, u: bool :: Event(l, OnStatusChange(h, u)) in r.events ==>
      && |Groups.GetAll(w.groups)| >= QuadTreeThreshold
      && l in w.listeners && h in Groups.GetAll(w.groups) && u == (h in w.candidates)
    // evicted candidates are queued for removal, one command each, after what was queued before
    ensures r.world.pending == w.pending + Removals(Evictions(r.world.store, r.world.candidates, b))
  {
    var s := SelectCandidates(w, cam, b, retrieve);
    var events := Dispatch(s.world.store, s.world.candidates, s.world.candidates, b, w.listeners, delta);
    DispatchKinds(s.world.store, s.world.candidates, s.world.candidates, b, w.listeners, delta);
    StatusThenDispatch(s.events, events);
    var evicted := Evictions(s.world.store, s.world.candidates, b);
    var removals := Removals(evicted);
    assert HandlesBelow(evicted, |w.store|);
    assert CommandsOk(w.pending + removals, |w.store|);
    Transition(s.world.(pending := w.pending + removals), s.events + events)
  }

  /**
   * What `update(delta)` tells the listeners after the status pass: per-object
   * dispatch skips the evicted candidates, and a dispatched active subject meets
   * every active candidate with another id.
   */
  lemma UpdateDispatch(w: World, delta: real, cam: Camera, b: Bounds, retrieve: (seq<Handle>, Rect) -> seq<Handle>)
    requires Valid(w) && RetrieveSound(retrieve)
    ensures var r := Update(w, delta, cam, b, retrieve);
      forall l: Listener, h: Handle, d: real :: Event(l, OnUpdate(h, d)) in r.events <==>
        l in w.listeners && h in r.world.candidates && !Evicts(b, h, r.world.store[h]) && d == delta
    ensures var r := Update(w, delta, cam, b, retrieve);
      forall l: Listener, h: Handle, o: Handle, d: real :: Event(l, OnPairUpdate(h, o, d)) in r.events <==>
        && l in w.listeners && h in r.world.candidates && !Evicts(b, h, r.world.store[h]) && r.world.store[h].active
        && o in r.world.candidates && r.world.store[o].active && r.world.store[h].id != r.world.store[o].id && d == delta
  {
    var s := SelectCandidates(w, cam, b, retrieve);
    var store, cands := s.world.store, s.world.candidates;
    var events := Dispatch(store, cands, cands, b, w.listeners, delta);
    var r := Update(w, delta, cam, b, retrieve);
    assert r.events == s.events + events && r.world.store == store && r.world.candidates == cands;
    DispatchUpdates(store, cands, cands, b, w.listeners, delta);
    DispatchPairs(store, cands, cands, b, w.listeners, delta);
    DispatchKinds(store, cands, cands, b, w.listeners, delta);
    StatusThenDispatch(s.events, events);
  }
}

=== FILE: update_properties.dfy ===
/**
 * Properties of the per-tick pipeline that relate several of its steps: the
 * exact status-change rule of candidate selection, the order of the dispatch
 * loop, and concrete query rectangles.
 */
module UpdateProperties {
  import opened Wrappers
  import opened Objects
  import opened Listeners
  import Groups
  import opened World
  import opened Update
  import opened WorldProperties

  /** Over objects visited once each, the status pass writes back exactly the status step of each. */
  lemma {:induction false} StatusPassFlags(store: seq<WorldObject>, all: seq<Handle>, prev: seq<Handle>, ls: seq<Listener>)
    requires HandlesBelow(all, |store|) && NoDup(all)
    decreases |all|
    ensures forall h :: h in all ==> StatusPass(store, all, prev, ls).0[h] == StatusStep(store[h], h in prev)
  {
    if all != [] {
      var h0 := all[0];
      var tail := all[1..];
      HandlesBelowTail(all, |store|);
      NoDupTail(all);
      var store' := store[h0 := StatusStep(store[h0], h0 in prev)];
      StatusPassFlags(store', tail, prev, ls);
      assert StatusPass(store, all, prev, ls).0 == StatusPass(store', tail, prev, ls).0;
      assert forall x :: x in all ==> x == h0 || x in tail by {
        assert all == [h0] + tail;
      }
    }
  }

  /**
   * Over objects visited once each, the status pass fires `onStatusChange(h, u)`
   * to a listener exactly when `u` is the previous membership of `h` and the
   * stored flag disagrees with it.
   */
  lemma {:induction false} StatusPassExact(store: seq<WorldObject>, all: seq<Handle>, prev: seq<Handle>, ls: seq<Listener>)
    requires HandlesBelow(all, |store|) && NoDup(all)
    decreases |all|
    ensures forall l: Listener, h: Handle, u: bool :: Event(l, OnStatusChange(h, u)) in StatusPass(store, all, prev, ls).1 <==>
      l in ls && h in all && u == (h in prev) && UpdateableFlag(store[h]) != u
  {
    if all != [] {
      var h0 := all[0];
      var tail := all[1..];
      HandlesBelowTail(all, |store|);
      NoDupTail(all);
      var was := h0 in prev;
      var store' := store[h0 := StatusStep(store[h0], was)];
      StatusPassExact(store', tail, prev, ls);
      var head := StatusNotices(store[h0], h0, was, ls);
      var rest := StatusPass(store', tail, prev, ls).1;
      assert StatusPass(store, all, prev, ls).1 == head + rest;
      assert forall x :: x in all <==> x == h0 || x in tail by {
        assert all == [h0] + tail;
      }
      forall l: Listener, h: Handle, u: bool
        ensures Event(l, OnStatusChange(h, u)) in head + rest <==>
          l in ls && h in all && u == (h in prev) && UpdateableFlag(store[h]) != u
      {
        var e := Event(l, OnStatusChange(h, u));
        assert e in head + rest <==> e in head || e in rest;
        if h == h0 {
          assert e !in rest;
        } else {
          assert e !in head;
          assert h in all <==> h in tail;
          assert h in tail ==> store'[h] == store[h];
        }
      }
    } else {
      assert StatusPass(store, all, prev, ls).1 == [];
    }
  }

  /** Notifying distinct listeners fires no callback twice. */
  lemma NotifyDistinct(ls: seq<Listener>, n: Notice)
    requires NoDup(ls)
    ensures NoDup(Notify(ls, n))
  {
  }

  lemma ConcatDistinct<T>(a: seq<T>, b: seq<T>)
    requires NoDup(a) && NoDup(b)
    requires forall x :: x in a ==> x !in b
    ensures NoDup(a + b)
  {
    var c := a + b;
    forall i, j | 0 <= i < j < |c| ensures c[i] != c[j] {
      if j < |a| {
        assert c[i] == a[i] && c[j] == a[j];
      } else if i >= |a| {
        assert c[i] == b[i - |a|] && c[j] == b[j - |a|];
      } else {
        assert c[i] == a[i] && a[i] in a && c[j] == b[j - |a|] && b[j - |a|] in b;
      }
    }
  }

  /**
   * With distinct listeners, each object visited once gets at most one
   * `onStatusChange` from each listener in a tick.
   */
  lemma {:induction false} StatusPassOncePerListener(store: seq<WorldObject>, all: seq<Handle>, prev: seq<Handle>, ls: seq<Listener>)
    requires HandlesBelow(all, |store|) && NoDup(all) && NoDup(ls)
    decreases |all|
    ensures NoDup(StatusPass(store, all, prev, ls).1)
  {
    if all != [] {
      var h0 := all[0];
      assert h0 in all;
      var was := h0 in prev;
      var store' := store[h0 := StatusStep(store[h0], was)];
      var tail := all[1..];
      assert forall x :: x in tail ==> x in all && x != h0 by {
        forall x | x in tail ensures x in all && x != h0 {
          var j :| 0 <= j < |tail| && tail[j] == x;
          assert all[j + 1] == x;
        }
      }
      assert NoDup(tail) by {
        forall i, j | 0 <= i < j < |tail| ensures tail[i] != tail[j] {
          assert tail[i] == all[i + 1] && tail[j] == all[j + 1];
        }
      }
      StatusPassOncePerListener(store', tail, prev, ls);
      var rest := StatusPass(store', tail, prev, ls);
      var head := StatusNotices(store[h0], h0, was, ls);
      assert StatusPass(store, all, prev, ls) == (rest.0, head + rest.1);
      NotifyDistinct(ls, OnStatusChange(h0, was));
      assert forall e :: e in head ==> e.notice.obj == h0;
      ConcatDistinct(head, rest.1);
    }
  }

  /**
   * `updateUpdatableObjects` at or above the threshold, over a `getAll()` that holds
   * each object once: the status rule per object and the flag written back.
   */
  lemma SelectCandidatesStatus(w: World, cam: Camera, b: Bounds, retrieve: (seq<Handle>, Rect) -> seq<Handle>)
    requires Valid(w) && RetrieveSound(retrieve)
    requires NoDup(Groups.GetAll(w.groups))
    ensures var all := Groups.GetAll(w.groups);
      var r := SelectCandidates(w, cam, b, retrieve);
      forall h :: h in all && |all| >= QuadTreeThreshold ==>
        r.world.store[h] == StatusStep(w.store[h], h in w.candidates)
    ensures var all := Groups.GetAll(w.groups);
      var r := SelectCandidates(w, cam, b, retrieve);
      forall l: Listener, h: Handle, u: bool :: Event(l, OnStatusChange(h, u)) in r.events <==>
        && |all| >= QuadTreeThreshold
        && l in w.listeners && h in all && u == (h in w.candidates) && UpdateableFlag(w.store[h]) != u
  {
    var all := Groups.GetAll(w.groups);
    if |all| >= QuadTreeThreshold {
      StatusPassFlags(w.store, all, w.candidates, w.listeners);
      StatusPassExact(w.store, all, w.candidates, w.listeners);
    }
  }

  /** The dispatch loop over a split candidate list is the loop over each part, one after the other. */
  lemma {:induction false} DispatchAppend(store: seq<WorldObject>, cands: seq<Handle>, s1: seq<Handle>, s2: seq<Handle>, b: Bounds, ls: seq<Listener>, delta: real)
    requires HandlesBelow(cands, |store|) && HandlesBelow(s1, |store|) && HandlesBelow(s2, |store|)
    decreases |s1|
    ensures HandlesBelow(s1 + s2, |store|)
    ensures Dispatch(store, cands, s1 + s2, b, ls, delta)
      == Dispatch(store, cands, s1, b, ls, delta) + Dispatch(store, cands, s2, b, ls, delta)
  {
    HandlesBelowAppend(s1, s2, |store|);
    if s1 == [] {
      assert s1 + s2 == s2;
    } else {
      DispatchCons(store, cands, s1, b, ls, delta);
      DispatchAppendHead(store, cands, s1, s2, b, ls, delta);
      DispatchAppend(store, cands, s1[1..], s2, b, ls, delta);
      var head := SubjectNotices(store, cands, s1[0], b, ls, delta);
      var d1 := Dispatch(store, cands, s1[1..], b, ls, delta);
      var d2 := Dispatch(store, cands, s2, b, ls, delta);
      assert head + (d1 + d2) == (head + d1) + d2;
    }
  }

  /** The first candidate of the left part is dispatched first. */
  lemma DispatchAppendHead(store: seq<WorldObject>, cands: seq<Handle>, s1: seq<Handle>, s2: seq<Handle>, b: Bounds, ls: seq<Listener>, delta: real)
    requires HandlesBelow(cands, |store|) && HandlesBelow(s1 + s2, |store|) && s1 != []
    ensures s1[0] < |store| && HandlesBelow(s1[1..] + s2, |store|)
    ensures Dispatch(store, cands, s1 + s2, b, ls, delta)
      == SubjectNotices(store, cands, s1[0], b, ls, delta) + Dispatch(store, cands, s1[1..] + s2, b, ls, delta)
  {
    var s := s1 + s2;
    DispatchCons(store, cands, s, b, ls, delta);
    assert s[0] == s1[0] && s[1..] == s1[1..] + s2;
  }

  /**
   * The i-th candidate's callbacks come after those of every earlier
   * candidate and before those of every later one.
   */
  lemma DispatchInCandidateOrder(store: seq<WorldObject>, cands: seq<Handle>, subjects: seq<Handle>, i: nat, b: Bounds, ls: seq<Listener>, delta: real)
    requires HandlesBelow(cands, |store|) && HandlesBelow(subjects, |store|) && i < |subjects|
    ensures subjects[i] in subjects
    ensures HandlesBelow(subjects[..i], |store|) && HandlesBelow(subjects[i + 1..], |store|)
    ensures Dispatch(store, cands, subjects, b, ls, delta)
      == Dispatch(store, cands, subjects[..i], b, ls, delta)
       + SubjectNotices(store, cands, subjects[i], b, ls, delta)
       + Dispatch(store, cands, subjects[i + 1..], b, ls, delta)
  {
    var pre := subjects[..i];
    var post := subjects[i..];
    var later := subjects[i + 1..];
    assert subjects == pre + post;
    assert subjects[i] in subjects;
    HandlesBelowSlice(subjects, 0, i, |store|);
    HandlesBelowSlice(subjects, i, |subjects|, |store|);
    assert subjects[i..|subjects|] == post && subjects[0..i] == pre;
    DispatchAppend(store, cands, pre, post, b, ls, delta);
    DispatchCons(store, cands, post, b, ls, delta);
    assert post[0] == subjects[i] && post[1..] == later;
    var dPre := Dispatch(store, cands, pre, b, ls, delta);
    var here := SubjectNotices(store, cands, subjects[i], b, ls, delta);
    var dLater := Dispatch(store, cands, later, b, ls, delta);
    assert dPre + (here + dLater) == dPre + here + dLater;
  }

  /**
   * A subject that is dispatched tells every listener `onUpdate`, in listener
   * order, before any of its pairwise callbacks.
   */
  lemma SubjectUpdatesFirst(store: seq<WorldObject>, cands: seq<Handle>, h: Handle, b: Bounds, ls: seq<Listener>, delta: real)
    requires h < |store| && HandlesBelow(cands, |store|) && !Evicts(b, h, store[h])
    ensures var r := SubjectNotices(store, cands, h, b, ls, delta);
      |r| >= |ls| && r[..|ls|] == Notify(ls, OnUpdate(h, delta))
      && forall e :: e in r[|ls|..] ==> e.notice.OnPairUpdate?
  {
    var r := SubjectNotices(store, cands, h, b, ls, delta);
    var pairs := if store[h].active then PairNotices(store, h, cands, ls, delta) else [];
    PairEvents(store, h, cands, ls, delta);
    assert r == Notify(ls, OnUpdate(h, delta)) + pairs;
    assert r[|ls|..] == pairs;
  }

  /**
   * `update(delta)` over a `getAll()` that holds each object once: the status
   * changes of the tick are exactly those of the status rule.
   */
  lemma UpdateStatusChanges(w: World, delta: real, cam: Camera, b: Bounds, retrieve: (seq<Handle>, Rect) -> seq<Handle>)
    requires Valid(w) && RetrieveSound(retrieve)
    requires NoDup(Groups.GetAll(w.groups))
    ensures var all := Groups.GetAll(w.groups);
      var r := Update.Update(w, delta, cam, b, retrieve);
      forall l: Listener, h: Handle, u: bool :: Event(l, OnStatusChange(h, u)) in r.events <==>
        && |all| >= QuadTreeThreshold
        && l in w.listeners && h in all && u == (h in w.candidates) && UpdateableFlag(w.store[h]) != u
    ensures var r := Update.Update(w, delta, cam, b, retrieve);
      forall i, j :: 0 <= i < j < |r.events| && r.events[j].notice.OnStatusChange? ==>
        r.events[i].notice.OnStatusChange?
  {
    var s := SelectCandidates(w, cam, b, retrieve);
    SelectCandidatesStatus(w, cam, b, retrieve);
    var events := Dispatch(s.world.store, s.world.candidates, s.world.candidates, b, w.listeners, delta);
    DispatchKinds(s.world.store, s.world.candidates, s.world.candidates, b, w.listeners, delta);
    var r := Update.Update(w, delta, cam, b, retrieve);
    assert r.events == s.events + events;
    forall l: Listener, h: Handle, u: bool
      ensures Event(l, OnStatusChange(h, u)) !in events
    {
    }
    forall i, j | 0 <= i < j < |r.events| && r.events[j].notice.OnStatusChange?
      ensures r.events[i].notice.OnStatusChange?
    {
      if j < |s.events| {
        assert r.events[i] == s.events[i] && s.events[i] in s.events;
      } else {
        assert false;
      }
    }
  }

  /** The eviction runnables, run in order, remove the evicted objects by their ids in eviction order. */
  lemma {:induction false} RunRemovals(w: World, hs: seq<Handle>)
    requires Valid(w) && HandlesBelow(hs, |w.store|)
    decreases |hs|
    ensures CommandsOk(Removals(hs), |w.store|)
    ensures RunCommands(w, Removals(hs)) == RemoveAll(w, IdsOf(w.store, hs))
  {
    if hs != [] {
      var h := hs[0];
      var tail := hs[1..];
      assert h in hs;
      assert HandlesBelow(tail, |w.store|) by {
        forall x | x in tail ensures x < |w.store| { assert x in hs; }
      }
      var cs := Removals(hs);
      assert cs[0] == DeferredRemoveObjects([h]);
      assert cs[1..] == Removals(tail);
      var ids := IdsOf(w.store, hs);
      var id := w.store[h].id;
      var t := RunCommand(w, cs[0]);
      assert IdsOf(w.store, [h]) == [id];
      assert t == RemoveAll(w, [id]);
      RemoveSingleId(w, id);
      RunRemovals(t.world, tail);
      var rest := RunCommands(t.world, cs[1..]);
      assert RunCommands(w, cs) == Transition(rest.world, t.events + rest.events);
      assert ids[0] == id && ids[1..] == IdsOf(w.store, tail);
    }
  }

  /**
   * A world whose queue holds just the eviction runnables for `ev`: the next
   * safe point removes those objects by their ids, in order, and none of
   * those ids is registered afterwards.
   */
  lemma FlushEvictions(u: World, ev: seq<Handle>)
    requires Valid(u) && HandlesBelow(ev, |u.store|) && u.pending == Removals(ev)
    ensures Flush(u) == RemoveAll(u.(pending := []), IdsOf(u.store, ev))
    ensures forall h :: h in ev ==> u.store[h].id !in Flush(u).world.identity
  {
    var ids := IdsOf(u.store, ev);
    RunRemovals(u.(pending := []), ev);
    RemoveAllIdentity(u.(pending := []), ids);
    forall h | h in ev ensures u.store[h].id in ids {
      var i :| 0 <= i < |ev| && ev[i] == h;
      assert ids[i] == u.store[h].id;
    }
  }

  /**
   * An update on a world with nothing queued leaves exactly the evictions
   * queued, so the next safe point removes the evicted objects by their ids,
   * in candidate order.
   */
  lemma EvictionsRunOnFlush(w: World, delta: real, cam: Camera, b: Bounds, retrieve: (seq<Handle>, Rect) -> seq<Handle>)
    requires Valid(w) && RetrieveSound(retrieve) && w.pending == []
    ensures var u := Update.Update(w, delta, cam, b, retrieve).world;
      var ev := Evictions(u.store, u.candidates, b);
      && HandlesBelow(ev, |u.store|)
      && Flush(u) == RemoveAll(u.(pending := []), IdsOf(u.store, ev))
      && forall h :: h in ev ==> u.store[h].id !in Flush(u).world.identity
  {
    var u := Update.Update(w, delta, cam, b, retrieve).world;
    var ev := Evictions(u.store, u.candidates, b);
    assert u.pending == Removals(ev) by {
      assert [] + Removals(ev) == Removals(ev);
    }
    FlushEvictions(u, ev);
  }

  /** A 20 by 20 camera at the origin of a 100 by 100 world queries 22 by 22 from the origin. */
  lemma QueryRectAtOrigin()
    ensures QueryRect(Camera(0.0, 0.0, 20.0, 20.0), 100.0, 100.0) == Rect(0.0, 0.0, 22.0, 22.0)
  {
    assert Padded(Camera(0.0, 0.0, 20.0, 20.0)) == Rect(-2.0, -2.0, 24.0, 24.0);
  }

  /** Away from the edges the padded viewport is queried as it is. */
  lemma QueryRectInside()
    ensures QueryRect(Camera(40.0, 40.0, 20.0, 20.0), 100.0, 100.0) == Rect(38.0, 38.0, 24.0, 24.0)
  {
    assert Padded(Camera(40.0, 40.0, 20.0, 20.0)) == Rect(38.0, 38.0, 24.0, 24.0);
  }

  /** Past the far corner the rectangle is cut back to the world's extent. */
  lemma QueryRectAtFarCorner()
    ensures QueryRect(Camera(90.0, 90.0, 20.0, 20.0), 100.0, 100.0) == Rect(88.0, 88.0, 12.0, 12.0)
  {
    assert Padded(Camera(90.0, 90.0, 20.0, 20.0)) == Rect(88.0, 88.0, 24.0, 24.0);
  }

  /**
   * Two candidates with the same id and flags, one inside the bounds and one
   * outside (as objects at different positions are): only the outside one is evicted.
   */
  lemma EvictionTellsEqualFieldsApart()
    ensures var o := WorldObject("a", true, false, None);
      Evictions([o, o], [0, 1], Bounds((h: Handle, _: WorldObject) => h == 0, 100.0, 100.0, 0.0, 0.0)) == [1]
  {
    var o := WorldObject("a", true, false, None);
    var b := Bounds((h: Handle, _: WorldObject) => h == 0, 100.0, 100.0, 0.0, 0.0);
    assert [0, 1][1..] == [1] && [1][1..] == [];
    assert Evictions([o, o], [1], b) == [1] + Evictions([o, o], [], b);
  }
}

=== FILE: world.dfy ===
/**
 * The object-lifecycle manager of `GameWorld`: pool allocation, the identity
 * map, the group index, the listener list and the queue of deferred commands.
 *
 * The world is an immutable record. Every operation returns the next world and
 * the trace of listener callbacks it fires, in firing order. The host
 * application's `postRunnable` is the explicit FIFO `pending`, drained by
 * `Flush`.
 */
module World {
  import opened Wrappers
  import opened Objects
  import opened Listeners
  import Groups

  type GroupKey = Groups.GroupKey

  /** The group `addObject` uses when the caller names none. */
  const DefaultGroup: GroupKey := "GlobalGameWorldGroup"

  /** A runnable posted to the host loop, run at the next safe point. */
  datatype Command =
    | DeferredAdd(group: GroupKey, obj: Handle)
    | DeferredRemoveIds(ids: seq<string>)
    | DeferredRemoveObjects(objs: seq<Handle>)

  /**
   * `store` holds every object the pool ever created, by handle; `free` is the
   * pool's free list; `candidates` is the per-tick buffer `updateableObjects`.
   */
  datatype World = World(
    store: seq<WorldObject>,
    free: seq<Handle>,
    identity: map<string, Handle>,
    groups: Groups.GroupIndex,
    listeners: seq<Listener>,
    candidates: seq<Handle>,
    pending: seq<Command>)

  /** The world after an operation and the callbacks the operation fired. */
  datatype Transition = Transition(world: World, events: seq<Event>)

  /** The world after `addObject`, the object it returned, and the callbacks fired. */
  datatype Added = Added(world: World, obj: Handle, events: seq<Event>)

  /** The arguments of `addObject(addObjectParameters)`. */
  datatype AddRequest = AddRequest(group: GroupKey, mutator: Option<WorldObject -> WorldObject>, lazy: bool)

  predicate CommandOk(c: Command, n: nat) {
    match c
    case DeferredAdd(_, h) => h < n
    case DeferredRemoveIds(_) => true
    case DeferredRemoveObjects(hs) => HandlesBelow(hs, n)
  }

  predicate CommandsOk(cs: seq<Command>, n: nat) {
    forall c :: c in cs ==> CommandOk(c, n)
  }

  /** Every handle the world holds refers to an object of its store. */
  predicate Valid(w: World) {
    && Groups.DistinctKeys(w.groups)
    && HandlesBelow(w.free, |w.store|)
    && (forall id :: id in w.identity ==> w.identity[id] < |w.store|)
    && HandlesBelow(Groups.GetAll(w.groups), |w.store|)
    && HandlesBelow(w.candidates, |w.store|)
    && CommandsOk(w.pending, |w.store|)
  }

  /** A freshly constructed world: nothing allocated, registered or queued. */
  function NewWorld(): (w: World)
    ensures Valid(w) && Size(w) == 0 && Groups.GetAll(w.groups) == [] && w.pending == []
  {
    World([], [], map[], [], [], [], [])
  }

  /** `size()`: the number of registered ids; zero exactly when nothing is registered. */
  function Size(w: World): (r: nat)
    ensures r == 0 <==> w.identity == map[]
  {
    |w.identity|
  }

  /** `getObjectById(id)`, with `None` for Java's `null`. */
  function GetObjectById(w: World, id: string): (r: Option<Handle>)
    ensures r.Some? <==> id in w.identity
    ensures r.Some? ==> r.value == w.identity[id]
  {
    if id in w.identity then Some(w.identity[id]) else None
  }

  /** `getObjects(null, updatableOnly)`: the candidate buffer, or every grouped object. */
  function GetObjects(w: World, updatableOnly: bool): (r: seq<Handle>)
    ensures Valid(w) ==> HandlesBelow(r, |w.store|)
    ensures updatableOnly ==> r == w.candidates
    ensures !updatableOnly ==> forall h :: h in r <==> exists i :: 0 <= i < |w.groups| && h in w.groups[i].members
  {
    if updatableOnly then w.candidates
    else
      Groups.InGetAllEvery(w.groups);
      Groups.GetAll(w.groups)
  }

  function AddListener(w: World, l: Listener): (r: World)
    ensures r.listeners == Listeners.AddListener(w.listeners, l)
    ensures r.(listeners := w.listeners) == w
    ensures Valid(w) ==> Valid(r)
  {
    w.(listeners := w.listeners + [l])
  }

  function RemoveListener(w: World, l: Listener): (r: World)
    ensures r.listeners == Listeners.RemoveListener(w.listeners, l)
    ensures r.(listeners := w.listeners) == w
    ensures Valid(w) ==> Valid(r)
  {
    w.(listeners := Listeners.RemoveListener(w.listeners, l))
  }

  /**
   * `pool.obtain()`: pops the last free object, or creates a new one. `handed`
   * is the state the pool hands the object out in (the world's object class,
   * and so its defaults and `reset`, are not part of this model).
   */
  function Obtain(w: World, handed: WorldObject): (r: Added)
    requires Valid(w)
    ensures Valid(r.world) && r.events == []
    ensures r.obj < |r.world.store| && r.world.store[r.obj] == handed
    ensures |w.free| > 0 ==> r.obj == w.free[|w.free| - 1] && r.world.free == w.free[..|w.free| - 1]
    ensures |w.free| == 0 ==> r.obj == |w.store| && r.world.free == w.free
    ensures |r.world.store| >= |w.store|
    ensures forall h :: 0 <= h < |w.store| && h != r.obj ==> r.world.store[h] == w.store[h]
    ensures r.world.(store := w.store, free := w.free) == w
  {
    if |w.free| > 0 then
      var h := w.free[|w.free| - 1];
      assert h in w.free;
      var rest := w.free[..|w.free| - 1];
      assert HandlesBelow(rest, |w.store|) by {
        forall x | x in rest ensures x < |w.store| {
          assert x in w.free;
        }
      }
      Added(w.(store := w.store[h := handed], free := rest), h, [])
    else
      Added(w.(store := w.store + [handed]), |w.store|, [])
  }

  /** The object after the request's mutator, if any, ran on it. */
  function Mutated(req: AddRequest, o: WorldObject): WorldObject {
    match req.mutator
    case None => o
    case Some(m) => m(o)
  }

  /**
   * `addObject(addObjectParameters)`. The duplicate check looks at the id the
   * pool handed out, before the mutator runs; registration uses the id after
   * it, and overwrites whatever the map held under that id.
   */
  function AddObject(w: World, req: AddRequest, handed: WorldObject): (r: Added)
    requires Valid(w)
    ensures Valid(r.world)
    ensures r.obj < |r.world.store|
    ensures r.world.listeners == w.listeners && r.world.candidates == w.candidates
    // the handed-out id is taken: the object is returned but enters nothing
    ensures handed.id in w.identity ==>
      && r.world.store[r.obj] == handed
      && r.world.identity == w.identity
      && r.world.groups == w.groups
      && r.world.pending == w.pending
      && r.events == []
    // registration happens at once, with the mutated object
    ensures handed.id !in w.identity ==>
      && r.world.store[r.obj] == Mutated(req, handed)
      && r.world.identity == w.identity[Mutated(req, handed).id := r.obj]
      && GetObjectById(r.world, Mutated(req, handed).id) == Some(r.obj)
    // immediate addition: grouped and announced before returning
    ensures handed.id !in w.identity && !req.lazy ==>
      && Groups.GetGroup(r.world.groups, req.group) == Some(Groups.GetGroup(w.groups, req.group).GetOr([]) + [r.obj])
      && (forall k :: k != req.group ==> Groups.GetGroup(r.world.groups, k) == Groups.GetGroup(w.groups, k))
      && multiset(Groups.GetAll(r.world.groups)) == multiset(Groups.GetAll(w.groups)) + multiset{r.obj}
      && r.world.pending == w.pending
      && r.events == Notify(w.listeners, OnAdd(r.obj))
    // lazy addition: grouping and `onAdd` wait for the queued command
    ensures handed.id !in w.identity && req.lazy ==>
      && r.world.groups == w.groups
      && r.world.pending == w.pending + [DeferredAdd(req.group, r.obj)]
      && r.events == []
    ensures Size(r.world) == Size(w) + (if handed.id in w.identity || Mutated(req, handed).id in w.identity then 0 else 1)
    // the pool hands out the object `obtain` gives, and no other stored object changes
    ensures r.obj == Obtain(w, handed).obj && r.world.free == Obtain(w, handed).world.free
    ensures |r.world.store| >= |w.store|
    ensures forall h :: 0 <= h < |w.store| && h != r.obj ==> r.world.store[h] == w.store[h]
  {
    var ob := Obtain(w, handed);
    var h := ob.obj;
    if handed.id in w.identity then
      ob
    else
      var o := Mutated(req, handed);
      var w1 := ob.world.(store := ob.world.store[h := o], identity := w.identity[o.id := h]);
      if req.lazy then
        Added(w1.(pending := w.pending + [DeferredAdd(req.group, h)]), h, [])
      else
        var g := Groups.AddToGroup(w.groups, req.group, h);
        assert HandlesBelow(Groups.GetAll(g), |w1.store|) by {
          forall x | x in Groups.GetAll(g) ensures x < |w1.store| {
            assert x in multiset(Groups.GetAll(g));
            assert x in Groups.GetAll(w.groups) || x == h;
          }
        }
        Added(w1.(groups := g), h, Notify(w.listeners, OnAdd(h)))
  }

  /** The request the `addObject` overloads build when they name no group. */
  function DefaultRequest(mutator: Option<WorldObject -> WorldObject>, lazy: bool): AddRequest {
    AddRequest(DefaultGroup, mutator, lazy)
  }

  /**
   * `addObject()`, `addObject(mutator)` and the other overloads without a
   * group: an immediate addition of an object with a free id lands at the end
   * of the default group, and a taken id leaves the groups alone.
   */
  lemma AddToDefaultGroup(w: World, mutator: Option<WorldObject -> WorldObject>, handed: WorldObject)
    requires Valid(w)
    ensures var r := AddObject(w, DefaultRequest(mutator, false), handed);
      handed.id !in w.identity ==>
        Groups.GetGroup(r.world.groups, DefaultGroup) == Some(Groups.GetGroup(w.groups, DefaultGroup).GetOr([]) + [r.obj])
    ensures handed.id in w.identity ==> AddObject(w, DefaultRequest(mutator, false), handed).world.groups == w.groups
  {
  }

  /** `remove(String... ids)`: only queues the removal. */
  function Remove(w: World, ids: seq<string>): (r: Transition)
    ensures r.world.pending == w.pending + [DeferredRemoveIds(ids)]
    ensures r.world.(pending := w.pending) == w && r.events == []
    ensures Valid(w) ==> Valid(r.world)
  {
    Transition(w.(pending := w.pending + [DeferredRemoveIds(ids)]), [])
  }

  /** `remove(GameObject... objects)`: only queues the removal; ids are read when it runs. */
  function RemoveObjects(w: World, objs: seq<Handle>): (r: Transition)
    requires HandlesBelow(objs, |w.store|)
    ensures r.world.pending == w.pending + [DeferredRemoveObjects(objs)]
    ensures r.world.(pending := w.pending) == w && r.events == []
    ensures Valid(w) ==> Valid(r.world)
  {
    Transition(w.(pending := w.pending + [DeferredRemoveObjects(objs)]), [])
  }

  /**
   * `removeInternally(id)`: an absent id is a silent no-op; a present one is
   * unregistered, announced to every listener, taken out of its group and
   * freed to the pool.
   */
  function RemoveInternally(w: World, id: string): (r: Transition)
    requires Valid(w)
    ensures Valid(r.world)
    ensures id !in r.world.identity
    ensures r.world.store == w.store && r.world.listeners == w.listeners
    ensures r.world.candidates == w.candidates && r.world.pending == w.pending
    ensures id !in w.identity ==> r == Transition(w, [])
    ensures id in w.identity ==>
      && r.events == Notify(w.listeners, OnRemove(w.identity[id]))
      && r.world.identity == w.identity - {id}
      && Size(r.world) == Size(w) - 1
      && w.identity[id] !in Groups.GetAll(r.world.groups)
      && multiset(Groups.GetAll(r.world.groups)) == multiset(Groups.GetAll(w.groups))[w.identity[id] := 0]
      && r.world.free == w.free + [w.identity[id]]
    // every group stays where it was, under its key, and only loses the object
    ensures id in w.identity ==>
      && |r.world.groups| == |w.groups|
      && forall i :: 0 <= i < |w.groups| ==>
        r.world.groups[i] == Groups.Entry(w.groups[i].key, Groups.Without(w.groups[i].members, w.identity[id]))
  {
    if id !in w.identity then
      Transition(w, [])
    else
      var h := w.identity[id];
      var g := Groups.Remove(w.groups, h);
      RemovedFromGroups(w.groups, h, |w.store|);
      UnregisteredId(w.identity, id);
      Transition(
        w.(identity := w.identity - {id}, groups := g, free := w.free + [h]),
        Notify(w.listeners, OnRemove(h)))
  }

  /** Taking `h` out of every group keeps the index well formed and drops exactly the copies of `h`. */
  lemma RemovedFromGroups(g: Groups.GroupIndex, h: Handle, n: nat)
    requires Groups.DistinctKeys(g) && HandlesBelow(Groups.GetAll(g), n)
    ensures var r := Groups.Remove(g, h);
      && Groups.DistinctKeys(r)
      && HandlesBelow(Groups.GetAll(r), n)
      && h !in Groups.GetAll(r)
      && multiset(Groups.GetAll(r)) == multiset(Groups.GetAll(g))[h := 0]
  {
    var r := Groups.Remove(g, h);
    Groups.GetAllRemove(g, h);
    Groups.WithoutCount(Groups.GetAll(g), h);
    Groups.RemoveKeepsKeys(g, h);
    forall x | x in Groups.GetAll(r) ensures x < n {
      assert x in Groups.GetAll(g);
    }
  }

  /** Unregistering a present id removes exactly that key. */
  lemma UnregisteredId(identity: map<string, Handle>, id: string)
    requires id in identity
    ensures |identity - {id}| == |identity| - 1
    ensures forall k :: k in identity - {id} ==> identity[k] == (identity - {id})[k]
  {
    assert (identity - {id}).Keys == identity.Keys - {id};
  }

  /** `removeInternally` for each id in turn. */
  function RemoveAll(w: World, ids: seq<string>): (r: Transition)
    requires Valid(w)
    decreases |ids|
    ensures Valid(r.world)
    ensures r.world.store == w.store && r.world.listeners == w.listeners
    ensures r.world.candidates == w.candidates && r.world.pending == w.pending
  {
    if ids == [] then
      Transition(w, [])
    else
      var t := RemoveInternally(w, ids[0]);
      var rest := RemoveAll(t.world, ids[1..]);
      Transition(rest.world, t.events + rest.events)
  }

  /** After removing `ids`, exactly the other ids are still registered, to the same objects. */
  lemma {:induction false} RemoveAllIdentity(w: World, ids: seq<string>)
    requires Valid(w)
    decreases |ids|
    ensures var r := RemoveAll(w, ids);
      forall id :: id in r.world.identity <==> id in w.identity && id !in ids
    ensures var r := RemoveAll(w, ids);
      forall id :: id in r.world.identity ==> r.world.identity[id] == w.identity[id]
  {
    if ids != [] {
      var t := RemoveInternally(w, ids[0]);
      var tail := ids[1..];
      RemoveAllIdentity(t.world, tail);
      var r := RemoveAll(t.world, tail);
      assert RemoveAll(w, ids).world == r.world;
      forall id ensures id in r.world.identity <==> id in w.identity && id !in ids {
        assert id in ids <==> id == ids[0] || id in tail by {
          assert ids == [ids[0]] + tail;
        }
      }
    }
  }

  /** Removing `ids` never adds a group member. */
  lemma {:induction false} RemoveAllShrinksGroups(w: World, ids: seq<string>)
    requires Valid(w)
    decreases |ids|
    ensures multiset(Groups.GetAll(RemoveAll(w, ids).world.groups)) <= multiset(Groups.GetAll(w.groups))
  {
    if ids != [] {
      var t := RemoveInternally(w, ids[0]);
      RemoveAllShrinksGroups(t.world, ids[1..]);
      assert RemoveAll(w, ids).world == RemoveAll(t.world, ids[1..]).world;
      var m := multiset(Groups.GetAll(w.groups));
      if ids[0] in w.identity {
        var h := w.identity[ids[0]];
        assert m[h := 0] <= m;
      }
    }
  }

  /** Removing `ids` fires nothing but `onRemove`, to registered listeners. */
  lemma {:induction false} RemoveAllEvents(w: World, ids: seq<string>)
    requires Valid(w)
    decreases |ids|
    ensures forall e :: e in RemoveAll(w, ids).events ==> e.notice.OnRemove? && e.listener in w.listeners
  {
    if ids != [] {
      var t := RemoveInternally(w, ids[0]);
      RemoveAllEvents(t.world, ids[1..]);
      var r := RemoveAll(t.world, ids[1..]);
      assert RemoveAll(w, ids).events == t.events + r.events;
      forall e: Event | e in t.events + r.events ensures e.notice.OnRemove? && e.listener in w.listeners {
        assert e in t.events || e in r.events;
      }
    }
  }

  /** The ids the objects carry in `store`. */
  function IdsOf(store: seq<WorldObject>, hs: seq<Handle>): (r: seq<string>)
    requires HandlesBelow(hs, |store|)
    ensures |r| == |hs|
    ensures forall i :: 0 <= i < |hs| ==> hs[i] in hs && r[i] == store[hs[i]].id
  {
    seq(|hs|, i requires 0 <= i < |hs| => assert hs[i] in hs; store[hs[i]].id)
  }

  /** Runs one deferred command. */
  function RunCommand(w: World, c: Command): (r: Transition)
    requires Valid(w) && CommandOk(c, |w.store|)
    ensures Valid(r.world)
    ensures r.world.store == w.store && r.world.listeners == w.listeners
    ensures r.world.candidates == w.candidates && r.world.pending == w.pending
  {
    match c
    case DeferredAdd(k, h) =>
      var g := Groups.AddToGroup(w.groups, k, h);
      assert HandlesBelow(Groups.GetAll(g), |w.store|) by {
        forall x | x in Groups.GetAll(g) ensures x < |w.store| {
          assert x in multiset(Groups.GetAll(g));
          assert x in Groups.GetAll(w.groups) || x == h;
        }
      }
      Transition(w.(groups := g), Notify(w.listeners, OnAdd(h)))
    case DeferredRemoveIds(ids) => RemoveAll(w, ids)
    case DeferredRemoveObjects(hs) => RemoveAll(w, IdsOf(w.store, hs))
  }

  /** Runs the commands in order, concatenating their traces. */
  function RunCommands(w: World, cs: seq<Command>): (r: Transition)
    requires Valid(w) && CommandsOk(cs, |w.store|)
    decreases |cs|
    ensures Valid(r.world)
    ensures r.world.store == w.store && r.world.listeners == w.listeners
    ensures r.world.candidates == w.candidates && r.world.pending == w.pending
  {
    if cs == [] then
      Transition(w, [])
    else
      var t := RunCommand(w, cs[0]);
      var rest := RunCommands(t.world, cs[1..]);
      Transition(rest.world, t.events + rest.events)
  }

  /** The host loop's safe point: every queued command runs, oldest first, and the queue empties. */
  function Flush(w: World): (r: Transition)
    requires Valid(w)
    ensures Valid(r.world) && r.world.pending == []
    ensures r.world.store == w.store && r.world.listeners == w.listeners && r.world.candidates == w.candidates
  {
    RunCommands(w.(pending := []), w.pending)
  }

  /**
   * `clearGroup(k)`: immediate. Each member of a copy of the group goes
   * through `removeInternally` by its id, then the group itself is dropped.
   */
  function ClearGroup(w: World, k: GroupKey): (r: Transition)
    requires Valid(w)
    ensures Valid(r.world)
    ensures Groups.GetGroup(r.world.groups, k) == None
    ensures Groups.GetGroup(w.groups, k).None? ==> r == Transition(w, [])
    ensures Groups.GetGroup(w.groups, k).Some? ==>
      var members := Groups.GetGroup(w.groups, k).value;
      && HandlesBelow(members, |w.store|)
      && r == ClearMembers(w, k, members)
    ensures forall e :: e in r.events ==> e.notice.OnRemove? && e.listener in w.listeners
    ensures r.world.store == w.store && r.world.listeners == w.listeners
    ensures r.world.candidates == w.candidates && r.world.pending == w.pending
  {
    match Groups.GetGroup(w.groups, k)
    case None => Transition(w, [])
    case Some(members) =>
      GroupMembersBelow(w, k);
      ClearMembers(w, k, members)
  }

  /** Removing `members` by their ids, then dropping group `k`. */
  function ClearMembers(w: World, k: GroupKey, members: seq<Handle>): (r: Transition)
    requires Valid(w) && HandlesBelow(members, |w.store|)
    ensures Valid(r.world)
    ensures Groups.GetGroup(r.world.groups, k) == None
    ensures forall id :: id in r.world.identity <==> id in w.identity && id !in IdsOf(w.store, members)
    ensures forall e :: e in r.events ==> e.notice.OnRemove? && e.listener in w.listeners
    ensures r.world.store == w.store && r.world.listeners == w.listeners
    ensures r.world.candidates == w.candidates && r.world.pending == w.pending
  {
    var t := RemoveAll(w, IdsOf(w.store, members));
    RemoveAllIdentity(w, IdsOf(w.store, members));
    RemoveAllShrinksGroups(w, IdsOf(w.store, members));
    RemoveAllEvents(w, IdsOf(w.store, members));
    var g := Groups.ClearGroup(t.world.groups, k);
    assert HandlesBelow(Groups.GetAll(g), |w.store|) by {
      forall x | x in Groups.GetAll(g) ensures x < |w.store| {
        assert x in multiset(Groups.GetAll(g));
        assert x in multiset(Groups.GetAll(t.world.groups));
        assert x in Groups.GetAll(t.world.groups);
      }
    }
    Transition(t.world.(groups := g), t.events)
  }

  lemma GroupMembersBelow(w: World, k: GroupKey)
    requires Valid(w) && Groups.GetGroup(w.groups, k).Some?
    ensures HandlesBelow(Groups.GetGroup(w.groups, k).value, |w.store|)
  {
    var i := Groups.Find(w.groups, k).value;
    forall x | x in w.groups[i].members ensures x < |w.store| {
      Groups.InGetAll(w.groups, x);
    }
  }

  /**
   * `clear()`: empties the pool, the groups and the identity map and fires one
   * `onClear` per listener. No `onRemove` fires; the candidate buffer and the
   * queued commands are left as they are.
   */
  function Clear(w: World): (r: Transition)
    ensures r.world.identity == map[] && Size(r.world) == 0
    ensures Groups.GetAll(r.world.groups) == [] && r.world.free == []
    // no group is left, not even an empty one
    ensures forall k :: Groups.GetGroup(r.world.groups, k) == None
    ensures r.events == Notify(w.listeners, OnClear)
    ensures forall e :: e in r.events ==> !e.notice.OnRemove?
    ensures r.world.store == w.store && r.world.listeners == w.listeners
    ensures r.world.candidates == w.candidates && r.world.pending == w.pending
    ensures Valid(w) ==> Valid(r.world)
  {
    Transition(w.(free := [], groups := [], identity := map[]), Notify(w.listeners, OnClear))
  }
}

=== FILE: world_properties.dfy ===
/**
 * Properties of the lifecycle manager that relate several operations: the
 * deferred queue's submission order, idempotent removal, lazy versus
 * immediate addition, `clearGroup` on registered members, and what the queue
 * does when a removal overtakes a lazy addition.
 */
module WorldProperties {
  import opened Wrappers
  import opened Objects
  import opened Listeners
  import Groups
  import opened World

  /** Running `a + b` is running `a`, then `b` on the result; the traces concatenate. */
  lemma {:induction false} RunCommandsAppend(w: World, a: seq<Command>, b: seq<Command>)
    requires Valid(w) && CommandsOk(a + b, |w.store|)
    decreases |a|
    ensures CommandsOk(a, |w.store|)
    ensures var ta := RunCommands(w, a);
      && CommandsOk(b, |ta.world.store|)
      && RunCommands(w, a + b) == Transition(RunCommands(ta.world, b).world, ta.events + RunCommands(ta.world, b).events)
  {
    var ab := a + b;
    assert CommandsOk(a, |w.store|) by {
      forall c | c in a ensures CommandOk(c, |w.store|) { assert c in ab; }
    }
    if a == [] {
      assert ab == b;
    } else {
      var rest := a[1..];
      assert ab[0] == a[0] && ab[1..] == rest + b;
      var t := RunCommand(w, a[0]);
      assert CommandsOk(rest + b, |w.store|) by {
        forall x | x in rest + b ensures CommandOk(x, |w.store|) { assert x in ab; }
      }
      RunCommandsAppend(t.world, rest, b);
      var ta := RunCommands(t.world, rest);
      var tb := RunCommands(ta.world, b);
      assert t.events + (ta.events + tb.events) == (t.events + ta.events) + tb.events;
    }
  }

  lemma RunSingleCommand(w: World, c: Command)
    requires Valid(w) && CommandOk(c, |w.store|)
    ensures CommandsOk([c], |w.store|)
    ensures RunCommands(w, [c]) == RunCommand(w, c)
  {
    assert [c][0] == c && [c][1..] == [];
    var t := RunCommand(w, c);
    assert t.events + [] == t.events;
  }

  lemma RemoveSingleId(w: World, id: string)
    requires Valid(w)
    ensures RemoveAll(w, [id]) == RemoveInternally(w, id)
  {
    assert [id][0] == id && [id][1..] == [];
    var t := RemoveInternally(w, id);
    assert t.events + [] == t.events;
  }

  /**
   * Commands queued in order `a` then `b` apply in that order at the safe
   * point: flushing is flushing what came first, then running the rest.
   */
  lemma FlushInSubmissionOrder(w: World, a: seq<Command>, b: seq<Command>)
    requires Valid(w) && w.pending == a + b
    ensures Valid(w.(pending := a))
    ensures var fa := Flush(w.(pending := a));
      && CommandsOk(b, |fa.world.store|)
      && Flush(w) == Transition(RunCommands(fa.world, b).world, fa.events + RunCommands(fa.world, b).events)
  {
    assert forall c :: c in a ==> c in a + b;
    RunCommandsAppend(w.(pending := []), a, b);
  }

  /** Removing an id that was just removed changes nothing and fires nothing. */
  lemma RemoveInternallyIdempotent(w: World, id: string)
    requires Valid(w)
    ensures var t := RemoveInternally(w, id);
      RemoveInternally(t.world, id) == Transition(t.world, [])
  {
  }

  /** `removeInternally` for the same id twice in one command is the same as once. */
  lemma RemoveSameIdTwice(w: World, id: string)
    requires Valid(w)
    ensures RemoveAll(w, [id, id]) == RemoveAll(w, [id])
    ensures |RemoveAll(w, [id, id]).events| == (if id in w.identity then |w.listeners| else 0)
  {
    var t := RemoveInternally(w, id);
    assert [id, id][1..] == [id];
    assert RemoveAll(t.world, [id]) == Transition(t.world, []) by {
      assert RemoveAll(t.world, [id][1..]) == Transition(t.world, []);
    }
    assert RemoveAll(w, [id]) == Transition(t.world, t.events + []) by {
      assert [id][1..] == [];
    }
  }

  /**
   * `remove(id)` called twice (in one tick or two), behind whatever was queued
   * already, fires `onRemove` at most once per listener: flushing both is
   * flushing one, and that one runs after the earlier queue and removes `id`
   * from the world the earlier queue left.
   */
  lemma DeferredRemoveTwice(w: World, id: string)
    requires Valid(w)
    ensures var once := Remove(w, [id]).world;
      var twice := Remove(once, [id]).world;
      && Flush(twice) == Flush(once)
      && var before := Flush(w).world;
        Flush(once).events == Flush(w).events
          + (if id in before.identity then Notify(w.listeners, OnRemove(before.identity[id])) else [])
  {
    var once := Remove(w, [id]).world;
    var twice := Remove(once, [id]).world;
    var base := w.(pending := []);
    var p := w.pending;
    var c := DeferredRemoveIds([id]);
    assert once.(pending := []) == base && twice.(pending := []) == base;
    assert once.pending == p + [c] && twice.pending == (p + [c]) + [c];
    assert CommandsOk(p + [c], |base.store|) by {
      forall x | x in p + [c] ensures CommandOk(x, |base.store|) {
        assert x in p || x == c;
      }
    }
    assert CommandsOk((p + [c]) + [c], |base.store|) by {
      forall x | x in (p + [c]) + [c] ensures CommandOk(x, |base.store|) {
        assert x in p + [c] || x == c;
      }
    }
    // the first removal runs on the world the earlier queue leaves
    RunCommandsAppend(base, p, [c]);
    var fw := RunCommands(base, p);
    RunSingleCommand(fw.world, c);
    RemoveSingleId(fw.world, id);
    var t := RemoveInternally(fw.world, id);
    assert Flush(once) == Transition(t.world, fw.events + t.events);
    // the second one finds the id gone
    RunCommandsAppend(base, p + [c], [c]);
    RunSingleCommand(t.world, c);
    RemoveSingleId(t.world, id);
    assert RemoveInternally(t.world, id) == Transition(t.world, []);
    assert (fw.events + t.events) + [] == fw.events + t.events;
  }

  /**
   * A lazy addition becomes the immediate one once the queue is flushed: the
   * same world and, across the two steps, the same `onAdd` calls.
   */
  lemma LazyAddMatchesImmediateAfterFlush(w: World, req: AddRequest, handed: WorldObject)
    requires Valid(w) && w.pending == [] && req.lazy
    ensures var lazy := AddObject(w, req, handed);
      var now := AddObject(w, req.(lazy := false), handed);
      && Flush(lazy.world).world == now.world
      && lazy.events + Flush(lazy.world).events == now.events
  {
    var lazy := AddObject(w, req, handed);
    var now := AddObject(w, req.(lazy := false), handed);
    var cmd := DeferredAdd(req.group, lazy.obj);
    if handed.id !in w.identity {
      assert lazy.world.pending == [cmd];
      RunSingleCommand(lazy.world.(pending := []), cmd);
    }
  }

  /** One `onRemove` per listener for each handle, handle after handle. */
  function RemoveNotices(ls: seq<Listener>, hs: seq<Handle>): (r: seq<Event>)
    ensures |r| == |hs| * |ls|
  {
    if hs == [] then []
    else
      assert |hs| * |ls| == |ls| + (|hs| - 1) * |ls|;
      Notify(ls, OnRemove(hs[0])) + RemoveNotices(ls, hs[1..])
  }

  /** The objects registered under `ids`. */
  function HandlesOf(identity: map<string, Handle>, ids: seq<string>): (r: seq<Handle>)
    requires forall id :: id in ids ==> id in identity
    ensures |r| == |ids| && forall i :: 0 <= i < |ids| ==> ids[i] in ids && r[i] == identity[ids[i]]
  {
    seq(|ids|, i requires 0 <= i < |ids| => assert ids[i] in ids; identity[ids[i]])
  }

  /** Removing distinct registered ids fires `onRemove` for each of their objects in turn, to every listener. */
  lemma {:induction false} RemoveAllRegisteredEvents(w: World, ids: seq<string>)
    requires Valid(w) && NoDup(ids)
    requires forall id :: id in ids ==> id in w.identity
    decreases |ids|
    ensures RemoveAll(w, ids).events == RemoveNotices(w.listeners, HandlesOf(w.identity, ids))
  {
    if ids != [] {
      var id0 := ids[0];
      var t := RemoveInternally(w, id0);
      var rest := ids[1..];
      TailOfDistinct(ids);
      RemoveAllRegisteredEvents(t.world, rest);
      var r := RemoveAll(t.world, rest);
      assert RemoveAll(w, ids).events == t.events + r.events;
      var hs := HandlesOf(w.identity, ids);
      assert HandlesOf(t.world.identity, rest) == hs[1..];
      assert RemoveNotices(w.listeners, hs) == Notify(w.listeners, OnRemove(hs[0])) + RemoveNotices(w.listeners, hs[1..]);
    }
  }

  /** Removing distinct registered ids shrinks the world by their number. */
  lemma {:induction false} RemoveAllRegisteredSize(w: World, ids: seq<string>)
    requires Valid(w) && NoDup(ids)
    requires forall id :: id in ids ==> id in w.identity
    decreases |ids|
    ensures Size(RemoveAll(w, ids).world) == Size(w) - |ids|
  {
    if ids != [] {
      var t := RemoveInternally(w, ids[0]);
      TailOfDistinct(ids);
      RemoveAllRegisteredSize(t.world, ids[1..]);
      assert RemoveAll(w, ids).world == RemoveAll(t.world, ids[1..]).world;
    }
  }

  /** After removing `ids`, no object that was registered under one of them is in a group. */
  lemma {:induction false} RemoveAllUngroups(w: World, ids: seq<string>)
    requires Valid(w)
    decreases |ids|
    ensures forall id :: id in ids && id in w.identity ==> w.identity[id] !in Groups.GetAll(RemoveAll(w, ids).world.groups)
  {
    if ids != [] {
      var id0 := ids[0];
      var t := RemoveInternally(w, id0);
      var rest := ids[1..];
      RemoveAllUngroups(t.world, rest);
      RemoveAllShrinksGroups(t.world, rest);
      var r := RemoveAll(t.world, rest);
      assert RemoveAll(w, ids).world == r.world;
      forall id | id in ids && id in w.identity ensures w.identity[id] !in Groups.GetAll(r.world.groups) {
        var h := w.identity[id];
        if id == id0 {
          assert h !in Groups.GetAll(t.world.groups);
          assert multiset(Groups.GetAll(r.world.groups))[h] <= multiset(Groups.GetAll(t.world.groups))[h];
        } else {
          assert id in rest by { assert ids == [id0] + rest; }
        }
      }
    }
  }

  lemma TailOfDistinct(ids: seq<string>)
    requires NoDup(ids) && ids != []
    ensures NoDup(ids[1..])
    ensures forall id :: id in ids[1..] ==> id in ids && id != ids[0]
  {
    var rest := ids[1..];
    forall id | id in rest ensures id in ids && id != ids[0] {
      var j :| 0 <= j < |rest| && rest[j] == id;
      assert ids[j + 1] == id;
    }
    forall i, j | 0 <= i < j < |rest| ensures rest[i] != rest[j] {
      assert rest[i] == ids[i + 1] && rest[j] == ids[j + 1];
    }
  }

  /**
   * `clearGroup(k)` on a group whose members are registered under their own,
   * distinct ids: exactly one `onRemove` per member and listener, in member
   * order, every member leaves the world, and the group is gone.
   */
  lemma ClearRegisteredGroup(w: World, k: GroupKey)
    requires Valid(w) && Groups.GetGroup(w.groups, k).Some?
    requires var members := Groups.GetGroup(w.groups, k).value;
      && NoDup(members)
      && forall m :: m in members ==> m < |w.store| && w.store[m].id in w.identity && w.identity[w.store[m].id] == m
    ensures var members := Groups.GetGroup(w.groups, k).value;
      var r := ClearGroup(w, k);
      && r.events == RemoveNotices(w.listeners, members)
      && |r.events| == |members| * |w.listeners|
      && Size(r.world) == Size(w) - |members|
      && Groups.GetGroup(r.world.groups, k) == None
      && forall m :: m in members ==> m !in Groups.GetAll(r.world.groups)
  {
    var members := Groups.GetGroup(w.groups, k).value;
    GroupMembersBelow(w, k);
    var ids := IdsOf(w.store, members);
    RegisteredIds(w, members);
    RemoveAllRegisteredEvents(w, ids);
    RemoveAllRegisteredSize(w, ids);
    RemoveAllUngroups(w, ids);
    var t := RemoveAll(w, ids);
    var g := Groups.ClearGroup(t.world.groups, k);
    var r := ClearGroup(w, k);
    assert r == ClearMembers(w, k, members);
    assert r == Transition(t.world.(groups := g), t.events);
    forall m | m in members ensures m !in Groups.GetAll(g) {
      var i :| 0 <= i < |members| && members[i] == m;
      assert ids[i] in ids && w.identity[ids[i]] == m;
      assert m !in Groups.GetAll(t.world.groups);
      assert multiset(Groups.GetAll(g))[m] <= multiset(Groups.GetAll(t.world.groups))[m];
    }
  }

  /** The ids of distinct registered objects are distinct, registered, and lead back to them. */
  lemma RegisteredIds(w: World, members: seq<Handle>)
    requires NoDup(members)
    requires forall m :: m in members ==> m < |w.store| && w.store[m].id in w.identity && w.identity[w.store[m].id] == m
    ensures HandlesBelow(members, |w.store|)
    ensures var ids := IdsOf(w.store, members);
      && NoDup(ids)
      && (forall id :: id in ids ==> id in w.identity)
      && HandlesOf(w.identity, ids) == members
  {
    var ids := IdsOf(w.store, members);
    forall i, j | 0 <= i < j < |ids| ensures ids[i] != ids[j] {
      assert members[i] in members && members[j] in members;
      assert w.identity[ids[i]] == members[i] && w.identity[ids[j]] == members[j];
    }
    forall id | id in ids ensures id in w.identity {
      var i :| 0 <= i < |ids| && ids[i] == id;
      assert members[i] in members;
    }
    var hs := HandlesOf(w.identity, ids);
    forall i | 0 <= i < |ids| ensures hs[i] == members[i] {
      assert members[i] in members;
    }
  }

  /**
   * The queue only orders this world's own commands: a `remove(id)` queued
   * before a lazy `addObject` whose object ends up with that id unregisters
   * and frees the object first, and the queued addition then puts the freed
   * object into its group anyway, announcing it after its removal.
   */
  lemma RemoveQueuedBeforeLazyAdd(w: World, id: string, req: AddRequest, handed: WorldObject)
    requires Valid(w) && w.pending == [] && req.lazy
    requires handed.id !in w.identity && Mutated(req, handed).id == id
    ensures var queued := Remove(w, [id]).world;
      var added := AddObject(queued, req, handed);
      var f := Flush(added.world);
      && f.events == Notify(w.listeners, OnRemove(added.obj)) + Notify(w.listeners, OnAdd(added.obj))
      && added.obj in Groups.GetAll(f.world.groups)
      && added.obj in f.world.free
      && id !in f.world.identity
  {
    var queued := Remove(w, [id]).world;
    var added := AddObject(queued, req, handed);
    var h := added.obj;
    var base := added.world.(pending := []);
    var c1 := DeferredRemoveIds([id]);
    var c2 := DeferredAdd(req.group, h);
    assert added.world.pending == [c1] + [c2];
    RunCommandsAppend(base, [c1], [c2]);
    var t1 := RemoveInternally(base, id);
    RemoveSingleId(base, id);
    RunSingleCommand(base, c1);
    RunSingleCommand(t1.world, c2);
    var t2 := RunCommand(t1.world, c2);
    assert multiset(Groups.GetAll(t2.world.groups))[h] > 0;
  }

  /** After `clear()`, `clearGroup(k)` finds no group under any key and does nothing. */
  lemma ClearGroupAfterClear(w: World, k: GroupKey)
    requires Valid(w)
    ensures Valid(Clear(w).world)
    ensures ClearGroup(Clear(w).world, k) == Transition(Clear(w).world, [])
  {
  }
}

=== FILE: wrappers.dfy ===
/** The optional-value datatype used where the Java code returns `null`. */
module Wrappers {

  datatype Option<+T> = None | Some(value: T) {

    /** The carried value, or `default` when there is none. */
    function GetOr(default: T): T {
      match this
      case Some(v) => v
      case None => default
    }
  }
}
